=== FILE: README.md ===
# Sandbox core: a Dafny model

This project models the code-execution sandbox of the application
(`app/core/sandbox/`): the decoder for Docker's multiplexed attach stream,
the one-shot demultiplexer and the resource-limit helpers of `docker.py`,
the archive helpers of `utility.py`, the exec I/O loop of
`DockerService.run_with_timeout`, the Dockerfile recipe and build decision
of `ImageManager`, and the profile registry of `config.py`.

Modules, one per concept:

- `Outcomes` (outcomes.dfy): `Option`, `Result` and the exceptions the
  sandbox raises or lets escape (`struct.error`, `KeyError`,
  `FileNotFoundError`, `DockerOperationsError`, `OSError`, other SDK
  errors). A Docker SDK call is reduced to its outcome, `SdkCall`.
- `Bytes` (bytes.dfy): bytes, the big-endian 32-bit length field.
- `Frames` (frames.dfy): the 8-byte frame header of the Docker Engine
  attach stream (stream byte, three padding bytes, big-endian length),
  `struct.unpack(">BxxxL", …)`, and frame encoding, used to state what a
  byte stream means.
- `StreamParsing` (stream_parser.dfy): `StreamParser` as a pure state
  machine over (header size, buffer, stdout, stderr), its decode loop as a
  recursive function and as a `while` loop; `ParserObject` wraps it in a
  class with `feed` and `get_output`. utility.py carries a textually
  identical `StreamParser`; both are modelled by these definitions.
- `DockerStreams` (docker_streams.dfy): `demultiplex_docker_stream` and
  the errno mapping of `_socket_read` / `_socket_write`.
- `Limits` (limits.dfy): `DEFAULT_LIMITS`, `merge_limits_defaults`,
  `create_ulimits`, and the limit defaulting of `create_container`.
- `Text`, `Utf8` (text.dfy, utf8.dfy): `str(int)`, `int(str)`,
  `sep.join`, `str.split`, and UTF-8 encoding, as far as the core uses them.
- `Archive` (archive.dfy): `create_archive` and
  `extract_file_from_archive` over an archive viewed as a sequence of
  members (name, kind, size, bytes).
- `ExecLoop` (exec_loop.dfy): `run_with_timeout` over a script of
  per-iteration events (clock, `select` readiness, container status,
  `recv` / `send` results), plus `put_archive` and `cleanup_container`.
- `Config` (config.dfy): module constants, `Profile` defaults and
  `configure`.
- `Recipe` (recipe.dfy): `_generate_dockerfile` and `build_profile`.

The `Profile` class in config.py has no `base_image`, `system_packages`,
`python_packages` or `image` attribute, and no `get_profile` or `workdir`
exists anywhere, although image_manager.py uses all of them. The model has
one `Profile` record with the union of the fields; `get_profile` is a map
lookup that requires the name to be registered, and the work directory is
a parameter.

## Model

| member | source | states |
|---|---|---|
| `StreamParsing.NewParser` | app/core/sandbox/stream_parser.py:7-11 | a new parser has the given header size, an empty buffer and empty outputs |
| `StreamParsing.Route` | app/core/sandbox/stream_parser.py:35-38 | stream byte 1 appends the payload to stdout, 2 to stderr, any other value drops it; the buffer is untouched |
| `StreamParsing.ProcessBuffer` | app/core/sandbox/stream_parser.py:17-40 | the decode loop raises `struct.error` exactly when the header size is not 8 and the buffer holds at least that many bytes; otherwise it leaves no complete frame in the buffer and only extends stdout and stderr |
| `StreamParsing.Feed` | app/core/sandbox/stream_parser.py:13-15 | after `feed` the buffer holds no complete frame, earlier outputs are prefixes of the new ones, and it fails only for a header size other than 8 |
| `StreamParsing.ProcessBufferStep` | app/core/sandbox/stream_parser.py:23-40 | extracting one frame removes exactly header plus length bytes from the front, routes the payload, and the loop continues from there |
| `StreamParsing.ProcessBufferSettled` | app/core/sandbox/stream_parser.py:19-29 | on a buffer holding no complete frame the loop returns without changing anything |
| `StreamParsing.ProcessBufferOfFrames` | app/core/sandbox/stream_parser.py:17-40 | a buffer of complete frames followed by an incomplete rest routes every payload in order and keeps exactly the rest |
| `StreamParsing.ProcessBufferDecomposes` | app/core/sandbox/stream_parser.py:26-40 | every buffer is a sequence of complete frames followed by what the loop leaves, and the outputs grow by those frames' payloads |
| `StreamParsing.ProcessBufferAppend` | app/core/sandbox/stream_parser.py:17-40 | bytes appended after an incomplete frame do not change what was already extracted; decoding resumes where it stopped |
| `StreamParsing.FeedChunkIndependent` | app/core/sandbox/stream_parser.py:13-15 | `feed(a); feed(b)` leaves the same buffer and outputs as `feed(a + b)` |
| `StreamParsing.FeedAllIsFeedOfWhole` | app/core/sandbox/stream_parser.py:13-40 | any split of the input into successive chunks decodes exactly as the whole input in one call |
| `StreamParsing.FeedOfNothing` | app/core/sandbox/stream_parser.py:14-20 | feeding no bytes into a settled parser changes nothing |
| `StreamParsing.FeedConservesBytes` | app/core/sandbox/stream_parser.py:26-40 | pending plus fed bytes equal 8 per frame header, plus stdout, stderr and dropped payloads, plus the bytes still pending |
| `StreamParsing.ProcessBufferLoop` | app/core/sandbox/utility.py:20-43 | the `while True` loop computes the same result as the recursive decode and ends settled |
| `ParserObject.StreamParser.Feed` | app/core/sandbox/stream_parser.py:13-15 | the object's state becomes the functional `Feed` result, or the call reports `struct.error` |
| `ParserObject.StreamParser.GetOutput` | app/core/sandbox/stream_parser.py:42-43 | `get_output` returns the accumulated stdout and stderr |
| `StreamParsing.OutputOfEncodedFrames` | app/core/sandbox/stream_parser.py:42-43 | after a fresh parser is fed a whole encoded stream, `get_output` returns the stdout frames' payloads and the stderr frames' payloads, each in stream order |
| `Frames.UnpackHeader` | app/core/sandbox/stream_parser.py:23-24 | unpacking fails with `struct.error` exactly when the header slice is not 8 bytes; the stream is byte 0 and the length is below 2^32 |
| `Frames.UnpackEncodedHeader` | app/core/sandbox/stream_parser.py:22-24 | unpacking an encoded header gives back its stream type and payload length |
| `Frames.UnpackIgnoresPadding` | app/core/sandbox/stream_parser.py:22-24 | the three padding bytes do not affect the unpacked header |
| `Frames.FrontFrame` | app/core/sandbox/stream_parser.py:23-33 | the complete frame at the front of a buffer is well formed and is exactly the buffer's first header plus length bytes |
| `Frames.EncodedFrameAtFront` | app/core/sandbox/stream_parser.py:23-33 | an encoded frame followed by anything is recognised as complete, and its length field and front frame are read back unchanged |
| `Frames.EncodeFramesLength` | app/core/sandbox/stream_parser.py:26 | a sequence of frames takes 8 bytes per frame plus its payloads |
| `Bytes.BigEndian32` | app/core/sandbox/stream_parser.py:24 | the length field read as an unsigned 32-bit big-endian value |
| `Bytes.BigEndian32OfToBigEndian32` | app/core/sandbox/stream_parser.py:24 | writing a 32-bit length and reading it back gives the length |
| `Bytes.ToBigEndian32OfBigEndian32` | app/core/sandbox/docker.py:135 | reading four bytes as a length and writing it back gives the bytes |
| `DockerStreams.Demultiplex` | app/core/sandbox/docker.py:128-133 | data shorter than one 8-byte header yields an empty stdout and an empty stderr |
| `DockerStreams.DemultiplexLength` | app/core/sandbox/docker.py:133-145 | for data of at least 8 bytes, stdout and stderr together are at least 8 bytes shorter than the data |
| `DockerStreams.DemultiplexFrontFrame` | app/core/sandbox/docker.py:134-143 | the one-shot decoder emits the front frame's payload to the stream its type selects and continues after it |
| `DockerStreams.DemultiplexFramesThen` | app/core/sandbox/docker.py:133-145 | frames followed by anything: their payloads come first, by stream and in order |
| `DockerStreams.DemultiplexCompleteFrames` | app/core/sandbox/docker.py:133-145 | on complete frames followed by fewer than 8 bytes the result is the stdout payloads and the stderr payloads, each concatenated in order |
| `DockerStreams.DemultiplexTruncatedFrame` | app/core/sandbox/docker.py:136-143 | a final frame cut after k payload bytes is still emitted with exactly those k bytes |
| `DockerStreams.DemultiplexAgreesWithParser` | app/core/sandbox/docker.py:118-145 | the one-shot decoder equals the incremental parser's output followed by the decoding of the parser's pending bytes |
| `DockerStreams.DemultiplexStep` | app/core/sandbox/docker.py:134-138 | one walker step reads the header at the walker and moves past 8 plus length bytes, clamped to the data |
| `DockerStreams.DemultiplexLoop` | app/core/sandbox/docker.py:128-145 | the walker loop computes the same pair as the recursive decoder |
| `DockerStreams.SocketRead` | app/core/sandbox/docker.py:147-155 | a recoverable errno (EINTR, EDEADLK, EWOULDBLOCK) reads as empty bytes, any other error propagates, an empty read is `None` (end of stream), data passes through |
| `DockerStreams.SocketWrite` | app/core/sandbox/docker.py:157-163 | a recoverable errno writes 0 bytes, any other error propagates, otherwise the count written is returned |
| `Text.DigitsValueOfNatToDecimal` | app/core/sandbox/docker_client.py:37 | the decimal digits of a natural number read back as that number |
| `Text.ParseIntOfIntToDecimal` | app/core/sandbox/docker_client.py:37 | `int(str(i)) == i` for every integer, negative ones included |
| `Text.JoinEnds` | app/core/sandbox/image_manager.py:45 | a newline-joined text starts with its first line and ends with its last |
| `Text.SplitJoin` | app/core/sandbox/image_manager.py:45 | splitting a joined text on the separator gives the parts back when no part contains it |
| `Utf8.DecodeEncodedChar` | app/core/sandbox/utility.py:56-57 | the UTF-8 encoding of one character decodes to that character and its width, whatever follows |
| `Utf8.DecodeEncode` | app/core/sandbox/utility.py:56-57 | decoding the UTF-8 encoding of a string gives the string back |
| `Archive.CreateArchive` | app/core/sandbox/utility.py:49-65 | one member per input file, in input order, with the name as given, a regular-file kind, text stored as UTF-8 and bytes unchanged, and size equal to the stored length |
| `Archive.FindLast` | app/core/sandbox/utility.py:71 | finds the last member with the name, or none when no member has it |
| `Archive.ExtractFile` | app/core/sandbox/utility.py:68-78 | `FileNotFoundError` exactly when no member has the name, or when the last such member is not a regular file; every error is that `FileNotFoundError` for the name, so a regular last member gives its bytes |
| `Archive.ExtractCreated` | app/core/sandbox/utility.py:49-76 | extracting a file from the archive created from it gives back its content bytes |
| `Archive.ExtractCreatedText` | app/core/sandbox/utility.py:56-76 | text stored in an archive decodes back to the same text |
| `Archive.ExtractMissing` | app/core/sandbox/utility.py:77-78 | extracting a name no input file has raises `FileNotFoundError` |
| `Limits.MergeLimitsDefaults` | app/core/sandbox/docker.py:104-116 | empty or missing limits give `DEFAULT_LIMITS`; otherwise every default key is present, caller values are kept, and a missing realtime becomes cputime times 5 |
| `Limits.MergeLimitsDefaultsIdempotent` | app/core/sandbox/docker.py:104-116 | merging defaults into already merged limits changes nothing |
| `Limits.MergeLimitsLoop` | app/core/sandbox/docker.py:108-116 | the loop over `DEFAULT_LIMITS` items computes the merged limits |
| `Limits.CreateUlimits` | app/core/sandbox/docker.py:92-102 | `KeyError` unless both cputime and file_size are given; a cpu ulimit (soft = hard = cputime) only for non-zero cputime, an fsize ulimit only for non-zero file_size, `None` when neither |
| `Limits.UlimitsOfMergedLimitsNeedFileSize` | app/core/sandbox/docker.py:99-101 | merged defaults without file_size make `create_ulimits` raise `KeyError('file_size')` |
| `Limits.CreateContainer` | app/core/sandbox/docker_client.py:29-48 | swap limit equals memory limit, pids limit defaults to 100, an `APIError` becomes `DockerOperationsError`, other errors escape |
| `Limits.CreateContainerMemoryLimit` | app/core/sandbox/docker_client.py:37 | the memory limit string reads back as the caller's memory value, or the configured default, followed by "m" |
| `Config.NewProfile` | app/core/sandbox/config.py:19-34 | name, image and command are stored as given (command `None` when omitted); user, read_only and network_disabled keep a given value and otherwise default to "root", false and true |
| `Config.NewProfileRoundTrip` | app/core/sandbox/config.py:20-34 | re-constructing a profile from its own attributes gives the same profile, and omitting a keyword is the same as passing its default |
| `Config.ListToMap` | app/core/sandbox/config.py:48 | every profile of a list is stored under its own name |
| `Config.ListToMapKeys` | app/core/sandbox/config.py:48 | the keys are exactly the names in the list |
| `Config.ListToMapLastWins` | app/core/sandbox/config.py:48 | when names repeat, the last profile with the name is the one stored |
| `Config.ProfilesMap` | app/core/sandbox/config.py:42-48 | the profiles to register, dict or list or none, are stored under their own names |
| `Config.Configure` | app/core/sandbox/config.py:37-51 | sets the configured flag and the Docker URL (also when it is `None`); adds the new names, replaces same-name entries, leaves every other entry alone; a dict registers `Profile(name, **kwargs)` per key |
| `Config.ConfigureWithList` | app/core/sandbox/config.py:47-50 | with a list, exactly the listed names are added and the last profile of each name wins |
| `Config.ConfigureKeepsWellKeyed` | app/core/sandbox/config.py:50 | after any update every profile is still registered under its own name |
| `Config.GetProfile` | app/core/sandbox/image_manager.py:48 | a registered name yields a profile carrying that name |
| `ExecLoop.Step` | app/core/sandbox/docker_client.py:91-120 | past the timeout the iteration times out; when idle it stops exactly if the status is "exited"; an empty read ends the stream, a reset stops the loop, another receive error is raised; a non-empty chunk is fed and the loop goes on with it recorded unless the send fails; when it writes, `Sent(n)` drops the first n unsent bytes, a broken pipe drops them all and a failed send raises an OS error; without a write stdin is unchanged, and without a read the parser and the received bytes are unchanged |
| `ExecLoop.ReadStep` | app/core/sandbox/docker_client.py:104-113 | no bytes end the stream, a reset ends the loop, another receive error is raised; a non-empty chunk lets the loop go on exactly when feeding it succeeds, and then it is fed to the parser and appended to the received bytes, leaving stdin alone |
| `ExecLoop.WriteStep` | app/core/sandbox/docker_client.py:115-120 | sent plus unsent bytes are conserved by a partial send; a broken pipe drops the unsent bytes; a failed send raises; the parser is untouched |
| `ExecLoop.StepIgnoresWritesWithoutStdin` | app/core/sandbox/docker_client.py:95-96 | once stdin is used up, neither write readiness nor a send outcome affects an iteration |
| `ExecLoop.InitialStateInvariant` | app/core/sandbox/docker_client.py:84-88 | the loop starts with a fresh 8-byte-header parser and the whole stdin unsent |
| `ExecLoop.StepKeepsInvariant` | app/core/sandbox/docker_client.py:104-120 | each iteration keeps the parser equal to the decoding of all bytes received, advances stdin by exactly the bytes sent, and after a broken pipe leaves nothing to send |
| `ExecLoop.RunLoopKeepsInvariant` | app/core/sandbox/docker_client.py:90-120 | however the loop ends, the invariant holds of its final state and only OS errors escape |
| `ExecLoop.StepRecordsDelivered` | app/core/sandbox/docker_client.py:104-110 | an iteration that goes on records exactly the chunk it received; one that ends records nothing |
| `ExecLoop.RunLoopRecordsDelivered` | app/core/sandbox/docker_client.py:90-120 | at the end of the loop the received bytes are exactly the chunks delivered, in order |
| `ExecLoop.Report` | app/core/sandbox/docker_client.py:121-151 | a timeout reports `timeout=True`, exit code -1, no `oom_killed`, and the output so far; completion reports `timeout=False`, the final parser's output, the container's exit code (`None` without a `State`) and its `OOMKilled` flag, defaulting to false; an exception from the loop passes through unchanged |
| `ExecLoop.RunWithTimeoutReport` | app/core/sandbox/docker_client.py:84-151 | once attached and started, only OS errors escape, every report's output equals a fresh parser fed at once all bytes `recv` delivered during the run, and a timeout report has exit code -1 and no `oom_killed` |
| `ExecLoop.TimeoutKeepsPartialOutput` | app/core/sandbox/docker_client.py:92-134 | when the clock is past the timeout the result carries the output parsed so far |
| `ExecLoop.RunWithTimeout` | app/core/sandbox/docker_client.py:72-82 | failing to get the attach socket, or an `APIError` from `start`, raises `DockerOperationsError`; another start error escapes as is; an OS error only comes from the loop |
| `ExecLoop.RunWithTimeoutLoop` | app/core/sandbox/docker_client.py:72-151 | the `while True` loop with its breaks computes the scripted result; attach failure and start `APIError` raise `DockerOperationsError` |
| `ExecLoop.PutArchive` | app/core/sandbox/docker_client.py:50-54 | an `APIError` becomes `DockerOperationsError`, any other SDK error escapes as it is, and success raises nothing |
| `ExecLoop.CleanupContainer` | app/core/sandbox/docker_client.py:153-157 | a failed removal is logged and never raised |
| `Recipe.Instructions` | app/core/sandbox/image_manager.py:16-43 | the recipe holds exactly the wanted instructions (user lines iff the user is not root, apt iff system packages, pip iff Python packages), each once, in phase order, from `FROM` to `CMD` |
| `Recipe.InstructionsLayout` | app/core/sandbox/image_manager.py:23-43 | the user is added second; a non-root recipe ends with `WORKDIR`, `chown`, `USER`, `CMD` |
| `Recipe.DockerfileLines` | app/core/sandbox/image_manager.py:45 | the Dockerfile split on newlines is exactly the rendered instructions |
| `Recipe.GenerateDockerfile` | app/core/sandbox/image_manager.py:16-45 | the Dockerfile begins with `FROM <base_image>` and ends with `CMD ["python3"]` |
| `Recipe.BuildProfile` | app/core/sandbox/image_manager.py:47-79 | an existing tag without forced rebuild is returned without building; with force or a missing tag, success means the generated Dockerfile was built under `profile.image`, and a build failure re-raises the SDK's own error |
| `Recipe.BuildProfileBuildsOnce` | app/core/sandbox/image_manager.py:51-55 | after a successful build, a second call without force reuses the image |

## Left out

- Docker SDK and transport: `attach_socket`, `containers.create`, `put_archive`, `images.get` / `build`, `start`, `kill`, `remove`, `reload`, `select`, `recv`, `send` are outcomes (`SdkCall`) or script events, not calls.
- `docker_communicate` (docker.py:165-242): an older variant of the exec loop; its stream decoding is the modelled `demultiplex_docker_stream`.
- `DockerClientManager` construction and client cache (docker.py:43-90): process-wide mutable state under a lock, and its HTTP retry configuration, which is what `DOCKER_MAX_READ_RETRIES`, `DOCKER_TIMEOUT`, `DOCKER_MAX_TOTAL_RETRIES`, `DOCKER_MAX_CONNECT_RETRIES` and `DOCKER_BACKOFF_FACTOR` (config.py:1-6) configure.
- `DOCKER_WORKDIR` and `SANDBOX_PREFIX_NAME` (config.py:7-9): the container working directory and container name prefix of the sandbox manager, which is not part of this model.
- `DockerService.__init__` (docker_client.py:19-27): creates the SDK client; `SandboxConfig` is not part of this model.
- manager.py is not part of this model.
- Tar byte encoding, tar name normalisation and member `mtime` (utility.py:59-62): the archive is a sequence of members.
- `create_archive_from_path` (utility.py:81-98): reads the local filesystem.
- Wall-clock time: `duration` (docker_client.py:150) and the `select` wait of 0.1 s; the clock is the `elapsed` value of each event.
- `ExecLoop.RunWithTimeoutLoop`: when the event script ends before the loop does, the result is `Ok(None)`; the source would keep waiting.
- `ExecLoop.RunWithTimeoutLoop`: closing the socket (after a start `APIError`, and in the `finally`) and killing the container on timeout are side effects without a result; a failing `container.reload()` is not modelled.
- `Limits.CreateUlimits`, `Limits.MergeLimitsDefaults`: limit values are integers; Python truthiness of other value types is not modelled.
- `StreamParsing.ProcessBuffer`: a negative header size cannot be constructed (`nat`).
- `Recipe.BuildProfile`: a profile name that is not registered is excluded by the precondition, because no `get_profile` exists to say what happens.
- `Config.Configure`: a profile dict entry whose keyword arguments lack `docker_image`, repeat `name` or carry an unknown key makes `Profile(name, **kwargs)` raise `TypeError` (config.py:43-46) after `IS_CONFIGURED` is already set (line 40) and before `PROFILES` and `DOCKER_URL` are updated; the model's keyword record always holds exactly the valid keywords, so that error path is not modelled.
- `Limits.MergeLimitsDefaults`: returns the merged value; that the source fills in the caller's dict in place, and returns the shared `DEFAULT_LIMITS` object itself for empty limits (docker.py:105-116), so later mutation of either is visible elsewhere, is not modelled.
- `Archive.CreateArchive`, `Recipe.BuildProfile`: `str.encode("utf-8")` raises `UnicodeEncodeError` on lone surrogates (utility.py:57, and image_manager.py:65 for the Dockerfile); Dafny characters are Unicode scalar values, so that error cannot arise in the model.
- Default arguments: `timeout=10` of `run_with_timeout` (docker_client.py:60) and `force_rebuild=False` of `build_profile` (image_manager.py:47) are not modelled; both values are always explicit parameters.
- Log messages are not modelled beyond whether `cleanup_container` logs an error.

=== FILE: archive.dfy ===
/** `create_archive` and `extract_file_from_archive` (utility.py), with the
    tar archive seen as its sequence of members rather than as bytes. */
module Archive {
  import opened Bytes
  import opened Outcomes
  import Utf8

  /** A file's content as the caller gives it: text or raw bytes. */
  datatype Content = Text(text: string) | Binary(data: seq<byte>)

  /** One `{"name": ..., "content": ...}` entry of the input list. */
  datatype FileSpec = FileSpec(name: string, content: Content)

  datatype MemberKind = RegularFile | Directory | SymbolicLink | OtherKind

  /** A tar member: header name, type, size, and its data. */
  datatype Member = Member(name: string, kind: MemberKind, size: nat, data: seq<byte>)

  /** Text is stored as its UTF-8 encoding, bytes unchanged. */
  function ContentBytes(c: Content): seq<byte>
  {
    match c
    case Text(t) => Utf8.Encode(t)
    case Binary(d) => d
  }

  /** The member `create_archive` adds for one input file. */
  function MemberOf(f: FileSpec): Member
  {
    var data := ContentBytes(f.content);
    Member(f.name, RegularFile, |data|, data)
  }

  /** `create_archive(files)`: one regular-file member per input file, in
      input order, named exactly as given, sized by its stored bytes. */
  function CreateArchive(files: seq<FileSpec>): (a: seq<Member>)
    ensures |a| == |files|
    ensures forall i | 0 <= i < |a| ::
              && a[i].name == files[i].name
              && a[i].kind == RegularFile
              && a[i].data == ContentBytes(files[i].content)
              && a[i].size == |a[i].data|
  {
    seq(|files|, i requires 0 <= i < |files| => MemberOf(files[i]))
  }

  /** Position of the last member with the given name, which is the one
      `TarFile.getmember` returns. */
  function FindLast(a: seq<Member>, name: string): (r: Option<nat>)
    decreases |a|
    ensures r.None? <==> forall i | 0 <= i < |a| :: a[i].name != name
    ensures r.Some? ==> r.value < |a| && a[r.value].name == name
                        && forall j | r.value < j < |a| :: a[j].name != name
  {
    if |a| == 0 then None
    else if a[|a| - 1].name == name then Some(|a| - 1)
    else
      var r := FindLast(a[..|a| - 1], name);
      assert forall i | 0 <= i < |a| - 1 :: a[..|a| - 1][i] == a[i];
      r
  }

  /** `extract_file_from_archive(archive, name)`: the data of the last
      member with that name; `FileNotFoundError` when there is none or it is not a
      regular file. */
  function ExtractFile(a: seq<Member>, name: string): (r: Result<seq<byte>>)
    ensures r == Err(FileNotFound(name, NotInArchive))
            <==> forall i | 0 <= i < |a| :: a[i].name != name
    ensures r == Err(FileNotFound(name, NotRegularFile))
            <==> exists i | 0 <= i < |a| :: && a[i].name == name && a[i].kind != RegularFile
                                            && forall j | i < j < |a| :: a[j].name != name
    ensures r.Ok? ==> exists i | 0 <= i < |a| :: && a[i].name == name && a[i].kind == RegularFile
                                                 && a[i].data == r.value
                                                 && forall j | i < j < |a| :: a[j].name != name
    ensures r.Err? ==> r.error.FileNotFound? && r.error.name == name
  {
    match FindLast(a, name)
    case None => Err(FileNotFound(name, NotInArchive))
    case Some(i) =>
      if a[i].kind != RegularFile then Err(FileNotFound(name, NotRegularFile))
      else Ok(a[i].data)
  }

  /** No later file in the list has the same name. */
  predicate LastWithName(files: seq<FileSpec>, i: int)
    requires 0 <= i < |files|
  {
    forall j | i < j < |files| :: files[j].name != files[i].name
  }

  /** Round trip: extracting a written file gives back its content bytes
      (for a repeated name, the content of the last file with it). */
  lemma ExtractCreated(files: seq<FileSpec>, i: nat)
    requires i < |files| && LastWithName(files, i)
    ensures ExtractFile(CreateArchive(files), files[i].name) == Ok(ContentBytes(files[i].content))
  {
    var a := CreateArchive(files);
    var r := FindLast(a, files[i].name);
    assert a[i].name == files[i].name;
    assert r.Some? && r.value == i;
  }

  /** Text files come back as their UTF-8 bytes, which decode to the text. */
  lemma ExtractCreatedText(files: seq<FileSpec>, i: nat)
    requires i < |files| && LastWithName(files, i) && files[i].content.Text?
    ensures ExtractFile(CreateArchive(files), files[i].name).Ok?
    ensures Utf8.Decode(ExtractFile(CreateArchive(files), files[i].name).value)
            == Some(files[i].content.text)
  {
    ExtractCreated(files, i);
    Utf8.DecodeEncode(files[i].content.text);
  }

  /** A name that no input file carries is reported as not found. */
  lemma ExtractMissing(files: seq<FileSpec>, name: string)
    requires forall i | 0 <= i < |files| :: files[i].name != name
    ensures ExtractFile(CreateArchive(files), name) == Err(FileNotFound(name, NotInArchive))
  {
  }
}

=== FILE: bytes.dfy ===
/** Bytes, big-endian 32-bit integers and concatenation of byte chunks. */
module Bytes {

  type byte = x: int | 0 <= x < 256

  const TwoTo32: nat := 0x1_0000_0000

  /** The unsigned 32-bit big-endian integer held by four bytes
      (the `L` of the `">BxxxL"` struct format). */
  function BigEndian32(b: seq<byte>): (n: nat)
    requires |b| == 4
    ensures n < TwoTo32
  {
    (b[0] as int) * 0x100_0000 + (b[1] as int) * 0x1_0000 + (b[2] as int) * 0x100 + b[3]
  }

  /** The four big-endian bytes of a 32-bit unsigned value. */
  function ToBigEndian32(n: nat): (b: seq<byte>)
    requires n < TwoTo32
    ensures |b| == 4
  {
    [n / 0x100_0000, (n / 0x1_0000) % 0x100, (n / 0x100) % 0x100, n % 0x100]
  }

  lemma BigEndian32OfToBigEndian32(n: nat)
    requires n < TwoTo32
    ensures BigEndian32(ToBigEndian32(n)) == n
  {
    var b := ToBigEndian32(n);
    assert n == (n / 0x100) * 0x100 + n % 0x100;
    assert n / 0x100 == (n / 0x1_0000) * 0x100 + (n / 0x100) % 0x100;
    assert n / 0x1_0000 == (n / 0x100_0000) * 0x100 + (n / 0x1_0000) % 0x100;
  }

  lemma ToBigEndian32OfBigEndian32(b: seq<byte>)
    requires |b| == 4
    ensures ToBigEndian32(BigEndian32(b)) == b
  {
    var n := BigEndian32(b);
    assert n / 0x100 == (b[0] as int) * 0x1_0000 + (b[1] as int) * 0x100 + b[2];
    assert n / 0x1_0000 == (b[0] as int) * 0x100 + b[1];
    assert n / 0x100_0000 == b[0];
  }

  /** Concatenation of chunks, first chunk first (`b"".join(chunks)`). */
  function Flatten(chunks: seq<seq<byte>>): seq<byte>
  {
    if |chunks| == 0 then [] else chunks[0] + Flatten(chunks[1..])
  }

  /** Regrouping a concatenation; a named step keeps the proofs that
      regroup output streams small. */
  lemma AppendAssoc(a: seq<byte>, b: seq<byte>, c: seq<byte>)
    ensures (a + b) + c == a + (b + c)
  {
  }

  function Min(a: int, b: int): int
  {
    if a <= b then a else b
  }
}

=== FILE: config.dfy ===
/** Sandbox configuration (config.py): module-level constants, the
    `Profile` record and the `configure` registry update. */
module Config {
  import opened Outcomes

  /** Wall-clock seconds granted per CPU second when no real-time limit is given. */
  const CpuToRealTimeFactor: int := 5

  const DefaultUser: string := "root"

  /** A named image template.  The fields after `networkDisabled` are the
      ones the image builder reads (base image, package lists, image tag);
      they are carried here so that one record serves both. */
  datatype Profile = Profile(
    name: string,
    dockerImage: string,
    command: Option<seq<string>>,
    user: string,
    readOnly: bool,
    networkDisabled: bool,
    baseImage: string,
    systemPackages: seq<string>,
    pythonPackages: seq<string>,
    image: string)

  /** Keyword arguments of `Profile(name, **kwargs)`; `None` in an
      optional field means the keyword was not passed. */
  datatype ProfileArgs = ProfileArgs(
    dockerImage: string,
    command: Option<seq<string>>,
    user: Option<string>,
    readOnly: Option<bool>,
    networkDisabled: Option<bool>,
    baseImage: string,
    systemPackages: seq<string>,
    pythonPackages: seq<string>,
    image: string)

  /** `Profile.__init__`: every keyword given is stored as given, and the
      ones left out take their defaults (`command=None`, `user="root"`,
      `read_only=False`, `network_disabled=True`). */
  function NewProfile(name: string, args: ProfileArgs): (p: Profile)
    ensures p.name == name && p.dockerImage == args.dockerImage && p.command == args.command
    ensures p.baseImage == args.baseImage && p.image == args.image
    ensures p.systemPackages == args.systemPackages && p.pythonPackages == args.pythonPackages
    ensures args.user.Some? ==> p.user == args.user.value
    ensures args.user.None? ==> p.user == DefaultUser
    ensures args.readOnly.Some? ==> p.readOnly == args.readOnly.value
    ensures args.readOnly.None? ==> !p.readOnly
    ensures args.networkDisabled.Some? ==> p.networkDisabled == args.networkDisabled.value
    ensures args.networkDisabled.None? ==> p.networkDisabled
  {
    Profile(
      name, args.dockerImage, args.command,
      match args.user case Some(u) => u case None => DefaultUser,
      match args.readOnly case Some(b) => b case None => false,
      match args.networkDisabled case Some(b) => b case None => true,
      args.baseImage, args.systemPackages, args.pythonPackages, args.image)
  }

  /** The keyword arguments that spell out every attribute of `p`. */
  function ArgsOf(p: Profile): ProfileArgs
  {
    ProfileArgs(p.dockerImage, p.command, Some(p.user), Some(p.readOnly), Some(p.networkDisabled),
                p.baseImage, p.systemPackages, p.pythonPackages, p.image)
  }

  /** Constructing a profile from its own attributes gives it back, and
      leaving out a keyword is the same as passing its default. */
  lemma NewProfileRoundTrip(p: Profile, args: ProfileArgs)
    ensures NewProfile(p.name, ArgsOf(p)) == p
    ensures NewProfile(p.name, args)
            == NewProfile(p.name, args.(user := Some(NewProfile(p.name, args).user),
                                        readOnly := Some(NewProfile(p.name, args).readOnly),
                                        networkDisabled := Some(NewProfile(p.name, args).networkDisabled)))
  {
  }

  /** Module state touched by `configure`: `IS_CONFIGURED`, `PROFILES`, `DOCKER_URL`. */
  datatype Settings = Settings(isConfigured: bool, profiles: map<string, Profile>, dockerUrl: Option<string>)

  /** The `profiles` argument of `configure`: a dict of keyword arguments
      by name, a list of ready profiles, or `None`. */
  datatype ProfilesArg =
    | ProfileDict(entries: map<string, ProfileArgs>)
    | ProfileList(items: seq<Profile>)
    | NoProfiles

  /** Every registered profile is stored under its own name. */
  predicate WellKeyed(profiles: map<string, Profile>)
  {
    forall k | k in profiles :: profiles[k].name == k
  }

  /** `{profile.name: profile for profile in items}`: a later profile with
      the same name replaces an earlier one. */
  function ListToMap(items: seq<Profile>): (m: map<string, Profile>)
    decreases |items|
    ensures WellKeyed(m)
  {
    if |items| == 0 then map[]
    else
      var last := items[|items| - 1];
      ListToMap(items[..|items| - 1])[last.name := last]
  }

  /** No profile after position `i` carries the same name. */
  predicate LastWithName(items: seq<Profile>, i: int)
    requires 0 <= i < |items|
  {
    forall j | i < j < |items| :: items[j].name != items[i].name
  }

  /** Exactly the names in the list are registered. */
  lemma {:induction false} ListToMapKeys(items: seq<Profile>)
    decreases |items|
    ensures forall k :: k in ListToMap(items) <==> exists i | 0 <= i < |items| :: items[i].name == k
  {
    if |items| > 0 {
      var n := |items| - 1;
      var front := items[..n];
      ListToMapKeys(front);
      forall k
        ensures k in ListToMap(items) <==> exists i | 0 <= i < |items| :: items[i].name == k
      {
        if k in ListToMap(front) {
          var i :| 0 <= i < |front| && front[i].name == k;
          assert items[i].name == k;
        }
        if exists i | 0 <= i < |items| :: items[i].name == k {
          var i :| 0 <= i < |items| && items[i].name == k;
          if i < n {
            assert front[i].name == k;
          }
        }
      }
    }
  }

  /** Each name maps to the last profile in the list that carries it. */
  lemma {:induction false} ListToMapLastWins(items: seq<Profile>)
    decreases |items|
    ensures forall i | 0 <= i < |items| && LastWithName(items, i) ::
              items[i].name in ListToMap(items) && ListToMap(items)[items[i].name] == items[i]
  {
    if |items| > 0 {
      var n := |items| - 1;
      var front := items[..n];
      ListToMapLastWins(front);
      forall i | 0 <= i < |items| && LastWithName(items, i)
        ensures items[i].name in ListToMap(items) && ListToMap(items)[items[i].name] == items[i]
      {
        if i < n {
          assert items[n].name != items[i].name;
          assert front[i] == items[i];
          assert LastWithName(front, i);
        }
      }
    }
  }

  /** The map `configure` merges into `PROFILES`. */
  function ProfilesMap(arg: ProfilesArg): (m: map<string, Profile>)
    ensures WellKeyed(m)
  {
    match arg
    case ProfileDict(entries) => map k | k in entries :: NewProfile(k, entries[k])
    case ProfileList(items) => ListToMap(items)
    case NoProfiles => map[]
  }

  /** `configure(profiles, docker_url)`. */
  function Configure(s: Settings, arg: ProfilesArg, dockerUrl: Option<string>): (r: Settings)
    ensures r.isConfigured && r.dockerUrl == dockerUrl
    ensures r.profiles.Keys == s.profiles.Keys + ProfilesMap(arg).Keys
    ensures forall k | k in s.profiles && k !in ProfilesMap(arg) :: r.profiles[k] == s.profiles[k]
    ensures arg.ProfileDict? ==>
              forall k | k in arg.entries :: r.profiles[k] == NewProfile(k, arg.entries[k])
    ensures arg.NoProfiles? ==> r.profiles == s.profiles
  {
    Settings(true, s.profiles + ProfilesMap(arg), dockerUrl)
  }

  /** With a list, exactly the listed names are added, every profile is
      registered under its `.name`, and when names repeat, the last one in
      the list wins. */
  lemma ConfigureWithList(s: Settings, items: seq<Profile>, dockerUrl: Option<string>)
    ensures var r := Configure(s, ProfileList(items), dockerUrl);
            forall k :: k in r.profiles <==> k in s.profiles || exists i | 0 <= i < |items| :: items[i].name == k
    ensures var r := Configure(s, ProfileList(items), dockerUrl);
            forall i | 0 <= i < |items| && LastWithName(items, i) ::
              items[i].name in r.profiles && r.profiles[items[i].name] == items[i]
  {
    ListToMapKeys(items);
    ListToMapLastWins(items);
  }

  /** Registration keeps every profile under its own name. */
  lemma ConfigureKeepsWellKeyed(s: Settings, arg: ProfilesArg, dockerUrl: Option<string>)
    requires WellKeyed(s.profiles)
    ensures WellKeyed(Configure(s, arg, dockerUrl).profiles)
  {
  }

  /** `get_profile(name)`: the profile registered under that name. */
  function GetProfile(s: Settings, name: string): (p: Profile)
    requires name in s.profiles
    ensures WellKeyed(s.profiles) ==> p.name == name
  {
    s.profiles[name]
  }
}

=== FILE: docker_streams.dfy ===
/** The one-shot stream demultiplexer and the socket read/write helpers of
    `DockerClientManager` (docker.py). */
module DockerStreams {
  import opened Bytes
  import opened Outcomes
  import opened Frames
  import StreamParsing

  /** Adds one payload in front of the output its stream type selects;
      payloads of any other stream type are dropped. */
  function Prepend(stream: byte, payload: seq<byte>, r: (seq<byte>, seq<byte>)): (seq<byte>, seq<byte>)
  {
    if stream == StdoutStream then (payload + r.0, r.1)
    else if stream == StderrStream then (r.0, payload + r.1)
    else r
  }

  /** `demultiplex_docker_stream`: walks the whole byte string frame by
      frame while at least a header's worth of bytes remains.  The payload
      slice is clamped to the data, so a final frame whose payload is cut
      short is still emitted with the bytes that are present. */
  function Demultiplex(data: seq<byte>): (r: (seq<byte>, seq<byte>))
    decreases |data|
    ensures |data| < HeaderSize ==> r == ([], [])
  {
    if |data| < HeaderSize then ([], [])
    else
      var h := UnpackHeader(data[..HeaderSize]).value;
      var end := Min(HeaderSize + h.length, |data|);
      Prepend(h.stream, data[HeaderSize..end], Demultiplex(data[end..]))
  }

  /** The loop emits payload bytes only: the two outputs together are at
      least a header shorter than any data holding a header. */
  lemma {:induction false} DemultiplexLength(data: seq<byte>)
    decreases |data|
    ensures var r := Demultiplex(data);
            |data| >= HeaderSize ==> |r.0| + |r.1| <= |data| - HeaderSize
  {
    if |data| >= HeaderSize {
      var h := UnpackHeader(data[..HeaderSize]).value;
      var end := Min(HeaderSize + h.length, |data|);
      DemultiplexLength(data[end..]);
    }
  }

  /** An encoded frame at the front is decoded to exactly its payload. */
  lemma DemultiplexFrontFrame(f: Frame, tail: seq<byte>)
    requires WellFormed(f)
    ensures Demultiplex(EncodeFrame(f) + tail) == Prepend(f.stream, f.payload, Demultiplex(tail))
  {
    var data := EncodeFrame(f) + tail;
    EncodedFrameAtFront(f, tail);
    assert data[..HeaderSize] == EncodeHeader(f);
    UnpackEncodedHeader(f);
    var end := HeaderSize + |f.payload|;
    assert data[HeaderSize..end] == f.payload;
    assert data[end..] == tail;
  }

  /** Prepending the first frame's payload to the routed payloads of the
      others routes all of them. */
  lemma PrependFirstFrame(fs: seq<Frame>, r: (seq<byte>, seq<byte>))
    requires |fs| > 0
    ensures Prepend(fs[0].stream, fs[0].payload, (StdoutOf(fs[1..]) + r.0, StderrOf(fs[1..]) + r.1))
            == (StdoutOf(fs) + r.0, StderrOf(fs) + r.1)
  {
    var x := if fs[0].stream == StdoutStream then fs[0].payload else [];
    var y := if fs[0].stream == StderrStream then fs[0].payload else [];
    assert StdoutOf(fs) == x + StdoutOf(fs[1..]);
    assert StderrOf(fs) == y + StderrOf(fs[1..]);
    AppendAssoc(x, StdoutOf(fs[1..]), r.0);
    AppendAssoc(y, StderrOf(fs[1..]), r.1);
    assert [] + (StdoutOf(fs[1..]) + r.0) == StdoutOf(fs[1..]) + r.0;
    assert [] + (StderrOf(fs[1..]) + r.1) == StderrOf(fs[1..]) + r.1;
  }

  /** Complete frames at the front are routed exactly as the encoder laid
      them out, whatever follows them. */
  lemma {:induction false} DemultiplexFramesThen(fs: seq<Frame>, rest: seq<byte>)
    requires AllWellFormed(fs)
    decreases |fs|
    ensures Demultiplex(EncodeFrames(fs) + rest)
            == (StdoutOf(fs) + Demultiplex(rest).0, StderrOf(fs) + Demultiplex(rest).1)
  {
    if |fs| == 0 {
      assert EncodeFrames(fs) + rest == rest;
      assert [] + Demultiplex(rest).0 == Demultiplex(rest).0;
      assert [] + Demultiplex(rest).1 == Demultiplex(rest).1;
    } else {
      var f := fs[0];
      var tail := EncodeFrames(fs[1..]) + rest;
      EncodeFramesCons(fs, rest);
      DemultiplexFrontFrame(f, tail);
      DemultiplexFramesThen(fs[1..], rest);
      PrependFirstFrame(fs, Demultiplex(rest));
    }
  }

  /** On a stream of complete frames, possibly followed by fewer than a
      header's worth of bytes, the result is the in-order concatenation of
      the stdout payloads and of the stderr payloads. */
  lemma DemultiplexCompleteFrames(fs: seq<Frame>, tail: seq<byte>)
    requires AllWellFormed(fs)
    requires |tail| < HeaderSize
    ensures Demultiplex(EncodeFrames(fs) + tail) == (StdoutOf(fs), StderrOf(fs))
  {
    DemultiplexFramesThen(fs, tail);
    assert StdoutOf(fs) + [] == StdoutOf(fs) && StderrOf(fs) + [] == StderrOf(fs);
  }

  /** A final frame cut short after `k` payload bytes is still emitted,
      carrying exactly those `k` bytes. */
  lemma DemultiplexTruncatedFrame(fs: seq<Frame>, f: Frame, k: nat)
    requires AllWellFormed(fs) && WellFormed(f)
    requires k < |f.payload|
    ensures var cut := Frame(f.stream, f.padding, f.payload[..k]);
            Demultiplex(EncodeFrames(fs) + EncodeFrame(f)[..HeaderSize + k])
            == (StdoutOf(fs + [cut]), StderrOf(fs + [cut]))
  {
    var cut := Frame(f.stream, f.padding, f.payload[..k]);
    var part := EncodeFrame(f)[..HeaderSize + k];
    DemultiplexFramesThen(fs, part);
    EncodedFrameAtFront(f, []);
    assert EncodeFrame(f) + [] == EncodeFrame(f);
    assert part[..HeaderSize] == EncodeHeader(f);
    UnpackEncodedHeader(f);
    assert part[HeaderSize..HeaderSize + k] == f.payload[..k];
    assert part[HeaderSize + k..] == [];
    assert Demultiplex(part) == Prepend(f.stream, f.payload[..k], ([], []));
    StdoutOfSnoc(fs, cut);
    assert f.payload[..k] + [] == f.payload[..k];
  }

  /** Routing distributes over appending one more frame. */
  lemma {:induction false} StdoutOfSnoc(fs: seq<Frame>, f: Frame)
    decreases |fs|
    ensures StdoutOf(fs + [f]) == StdoutOf(fs) + (if f.stream == StdoutStream then f.payload else [])
    ensures StderrOf(fs + [f]) == StderrOf(fs) + (if f.stream == StderrStream then f.payload else [])
  {
    if |fs| == 0 {
      assert fs + [f] == [f];
      assert StdoutOf([f][1..]) == [];
    } else {
      assert (fs + [f])[1..] == fs[1..] + [f];
      StdoutOfSnoc(fs[1..], f);
      var x := if fs[0].stream == StdoutStream then fs[0].payload else [];
      var y := if fs[0].stream == StderrStream then fs[0].payload else [];
      var z := if f.stream == StdoutStream then f.payload else [];
      var w := if f.stream == StderrStream then f.payload else [];
      AppendAssoc(x, StdoutOf(fs[1..]), z);
      AppendAssoc(y, StderrOf(fs[1..]), w);
    }
  }

  /** The one-shot decoder agrees with the incremental parser on everything
      the parser has extracted; they differ only on the parser's pending
      bytes, which the one-shot decoder still emits when they hold a
      header. */
  lemma DemultiplexAgreesWithParser(data: seq<byte>)
    ensures StreamParsing.Feed(StreamParsing.NewParser(HeaderSize), data).Ok?
    ensures var q := StreamParsing.Feed(StreamParsing.NewParser(HeaderSize), data).value;
            Demultiplex(data) == (q.stdout + Demultiplex(q.buffer).0, q.stderr + Demultiplex(q.buffer).1)
  {
    var p := StreamParsing.NewParser(HeaderSize);
    assert p.buffer + data == data;
    var fs := StreamParsing.ProcessBufferDecomposes(p.(buffer := data));
    var q := StreamParsing.Feed(p, data).value;
    DemultiplexFramesThen(fs, q.buffer);
    assert [] + StdoutOf(fs) == StdoutOf(fs) && [] + StderrOf(fs) == StderrOf(fs);
  }

  /** One iteration of the walker loop, read off the remaining data. */
  lemma DemultiplexStep(data: seq<byte>, walker: nat)
    requires walker + HeaderSize <= |data|
    ensures var h := UnpackHeader(data[walker..walker + HeaderSize]).value;
            var end := walker + HeaderSize + h.length;
            Demultiplex(data[walker..])
            == Prepend(h.stream, data[walker + HeaderSize..Min(end, |data|)], Demultiplex(data[Min(end, |data|)..]))
  {
    var rest := data[walker..];
    assert rest[..HeaderSize] == data[walker..walker + HeaderSize];
    var h := UnpackHeader(rest[..HeaderSize]).value;
    var end := walker + HeaderSize + h.length;
    assert Min(HeaderSize + h.length, |rest|) == Min(end, |data|) - walker;
    assert rest[HeaderSize..Min(end, |data|) - walker] == data[walker + HeaderSize..Min(end, |data|)];
    assert rest[Min(end, |data|) - walker..] == data[Min(end, |data|)..];
  }

  /** Appending a payload to the output so far, then the rest, is the
      output so far followed by the payload prepended to the rest. */
  lemma EmitThenRest(out: seq<byte>, err: seq<byte>, stream: byte, payload: seq<byte>, later: (seq<byte>, seq<byte>))
    ensures var out' := if stream == StdoutStream then out + payload else out;
            var err' := if stream == StderrStream then err + payload else err;
            (out' + later.0, err' + later.1)
            == (out + Prepend(stream, payload, later).0, err + Prepend(stream, payload, later).1)
  {
    AppendAssoc(out, payload, later.0);
    AppendAssoc(err, payload, later.1);
  }

  /** The walker loop's invariant: the output so far followed by the
      decoding of what is left from the walker on is the whole decoding. */
  predicate Walked(data: seq<byte>, walker: nat, out: seq<byte>, err: seq<byte>)
  {
    var rest := Demultiplex(data[Min(walker, |data|)..]);
    (out + rest.0, err + rest.1) == Demultiplex(data)
  }

  /** One walker step keeps the invariant. */
  lemma WalkStep(data: seq<byte>, walker: nat, out: seq<byte>, err: seq<byte>)
    requires walker + HeaderSize <= |data| && Walked(data, walker, out, err)
    ensures var h := UnpackHeader(data[walker..walker + HeaderSize]).value;
            var end := walker + HeaderSize + h.length;
            var payload := data[walker + HeaderSize..Min(end, |data|)];
            Walked(data, end, if h.stream == StdoutStream then out + payload else out,
                   if h.stream == StderrStream then err + payload else err)
  {
    var h := UnpackHeader(data[walker..walker + HeaderSize]).value;
    var end := walker + HeaderSize + h.length;
    var payload := data[walker + HeaderSize..Min(end, |data|)];
    DemultiplexStep(data, walker);
    EmitThenRest(out, err, h.stream, payload, Demultiplex(data[Min(end, |data|)..]));
  }

  /** `demultiplex_docker_stream` as written: a `walker` index that jumps
      from header to header and may overshoot the end of the data. */
  method DemultiplexLoop(data: seq<byte>) returns (stdout: seq<byte>, stderr: seq<byte>)
    ensures (stdout, stderr) == Demultiplex(data)
  {
    stdout, stderr := [], [];
    var walker: nat := 0;
    assert data[0..] == data;
    assert [] + Demultiplex(data).0 == Demultiplex(data).0;
    assert [] + Demultiplex(data).1 == Demultiplex(data).1;
    while |data| - walker >= HeaderSize
      invariant Walked(data, walker, stdout, stderr)
      decreases |data| - walker
    {
      var h := UnpackHeader(data[walker..walker + HeaderSize]).value;
      var start := walker + HeaderSize;
      var end := start + h.length;
      WalkStep(data, walker, stdout, stderr);
      if h.stream == StdoutStream {
        stdout := stdout + data[start..Min(end, |data|)];
      } else if h.stream == StderrStream {
        stderr := stderr + data[start..Min(end, |data|)];
      }
      walker := end;
    }
    assert Demultiplex(data[Min(walker, |data|)..]) == ([], []);
    assert stdout + [] == stdout && stderr + [] == stderr;
  }

  /** errno values of Linux: `EINTR`, `EDEADLK`, `EWOULDBLOCK` (= `EAGAIN`). */
  const EINTR: int := 4
  const EDEADLK: int := 35
  const EWOULDBLOCK: int := 11

  /** `ERRNO_RECOVERABLE`. */
  const RecoverableErrnos: set<int> := {EINTR, EDEADLK, EWOULDBLOCK}

  /** What `os.read` / `os.write` did: returned a value or raised an
      `OSError` with an errno. */
  datatype ReadOutcome = ReadBytes(data: seq<byte>) | ReadRaised(readErrno: int)
  datatype WriteOutcome = WroteBytes(count: nat) | WriteRaised(writeErrno: int)

  /** `_socket_read`: `Some(bytes)` for data (empty after a recoverable
      error), `None` at end of stream, `Err` for any other error. */
  function SocketRead(o: ReadOutcome): (r: Result<Option<seq<byte>>>)
    ensures r.Err? <==> o.ReadRaised? && o.readErrno !in RecoverableErrnos
    ensures r.Err? ==> r.error == OsError(o.readErrno)
    ensures r == Ok(None) <==> o == ReadBytes([])
    ensures r == Ok(Some([])) <==> o.ReadRaised? && o.readErrno in RecoverableErrnos
    ensures o.ReadBytes? && o.data != [] ==> r == Ok(Some(o.data))
  {
    match o
    case ReadRaised(e) => if e in RecoverableErrnos then Ok(Some([])) else Err(OsError(e))
    case ReadBytes(d) => if |d| > 0 then Ok(Some(d)) else Ok(None)
  }

  /** `_socket_write`: the count written, 0 after a recoverable error,
      `Err` for any other error. */
  function SocketWrite(o: WriteOutcome): (r: Result<nat>)
    ensures r.Err? <==> o.WriteRaised? && o.writeErrno !in RecoverableErrnos
    ensures r.Err? ==> r.error == OsError(o.writeErrno)
    ensures o.WroteBytes? ==> r == Ok(o.count)
    ensures o.WriteRaised? && o.writeErrno in RecoverableErrnos ==> r == Ok(0)
  {
    match o
    case WriteRaised(e) => if e in RecoverableErrnos then Ok(0) else Err(OsError(e))
    case WroteBytes(n) => Ok(n)
  }
}

=== FILE: exec_loop.dfy ===
/** `DockerService` (docker_client.py): the exec I/O loop of
    `run_with_timeout`, and the error handling of `put_archive` and
    `cleanup_container`.

    The socket, the container and the clock are not modelled as objects:
    each loop iteration reads one `Event` from a script that says what the
    clock showed, what `select` reported, what `recv` and `send` returned
    and what status a container reload gave.
 */
module ExecLoop {
  import opened Bytes
  import opened Outcomes
  import opened Frames
  import StreamParsing

  /** What `sock.recv(4096)` did. */
  datatype Recv = Received(data: seq<byte>) | ConnectionReset | RecvFailed(recvErrno: int)

  /** What `sock.send(stdin_view)` did. */
  datatype Send = Sent(count: nat) | BrokenPipe | SendFailed(sendErrno: int)

  /** One iteration's view of the world: seconds elapsed since the start,
      the readiness `select` reported for reading and for writing, the
      status a reload would show, and the outcomes of `recv` and `send`
      (each used only if the loop performs that call). */
  datatype Event = Event(elapsed: int, readable: bool, writable: bool, status: string, recv: Recv, send: Send)

  /** Loop variables: the parser, the unsent stdin view, and the history
      of bytes received and sent so far. */
  datatype LoopState = LoopState(
    parser: StreamParsing.Parser, stdin: seq<byte>, received: seq<byte>, sent: seq<byte>, pipeBroken: bool)

  /** Why the loop ended. */
  datatype LoopEnd =
    | Exited(exitedState: LoopState)      // idle and the container reported "exited"
    | EndOfStream(eofState: LoopState)    // `recv` returned no bytes
    | Reset(resetState: LoopState)        // `ConnectionResetError`
    | TimedOut(timeoutState: LoopState)   // elapsed time exceeded the timeout
    | Raised(error: Error)                // any other exception escaped the loop
    | OutOfEvents(lastState: LoopState)   // the script ended while the loop would go on

  datatype StepResult = Continue(next: LoopState) | Stop(end: LoopEnd)

  /** The socket is polled for writability only while stdin bytes remain. */
  predicate WantsWrite(st: LoopState)
  {
    |st.stdin| > 0
  }

  /** Reading half of an iteration. */
  function ReadStep(st: LoopState, r: Recv): (res: StepResult)
    ensures r == Received([]) ==> res == Stop(EndOfStream(st))
    ensures r.ConnectionReset? ==> res == Stop(Reset(st))
    ensures r.RecvFailed? ==> res == Stop(Raised(OsError(r.recvErrno)))
    ensures r.Received? && |r.data| > 0 ==> (res.Continue? <==> StreamParsing.Feed(st.parser, r.data).Ok?)
    ensures r.Received? && |r.data| > 0 && StreamParsing.Feed(st.parser, r.data).Err? ==>
              res == Stop(Raised(StreamParsing.Feed(st.parser, r.data).error))
    ensures res.Continue? ==>
              && r.Received?
              && StreamParsing.Feed(st.parser, r.data) == Ok(res.next.parser)
              && res.next.received == st.received + r.data
              && res.next.stdin == st.stdin && res.next.sent == st.sent && res.next.pipeBroken == st.pipeBroken
  {
    match r
    case Received(data) =>
      if |data| == 0 then Stop(EndOfStream(st))
      else
        (match StreamParsing.Feed(st.parser, data)
         case Ok(p) => Continue(st.(parser := p, received := st.received + data))
         case Err(e) => Stop(Raised(e)))
    case ConnectionReset => Stop(Reset(st))
    case RecvFailed(errno) => Stop(Raised(OsError(errno)))
  }

  /** Writing half of an iteration: advance the stdin view by the count
      sent; a broken pipe drops the rest of stdin. */
  function WriteStep(st: LoopState, s: Send): (res: StepResult)
    ensures s.Sent? ==>
              && res.Continue?
              && res.next.stdin == st.stdin[Min(s.count, |st.stdin|)..]
              && res.next.sent + res.next.stdin == st.sent + st.stdin
    ensures s.BrokenPipe? ==> res.Continue? && res.next.stdin == [] && res.next.pipeBroken && res.next.sent == st.sent
    ensures s.SendFailed? ==> res == Stop(Raised(OsError(s.sendErrno)))
    ensures res.Continue? ==> res.next.parser == st.parser && res.next.received == st.received
  {
    match s
    case Sent(n) =>
      var k := Min(n, |st.stdin|);
      Continue(st.(stdin := st.stdin[k..], sent := st.sent + st.stdin[..k]))
    case BrokenPipe => Continue(st.(stdin := [], pipeBroken := true))
    case SendFailed(errno) => Stop(Raised(OsError(errno)))
  }

  /** The iteration calls `send`: within the time limit, the socket was
      polled for writing and reported writable, and the read (if any) let
      the loop go on. */
  predicate WritesThisStep(timeout: int, st: LoopState, e: Event)
  {
    && e.elapsed <= timeout
    && e.writable && WantsWrite(st)
    && (e.readable ==> ReadStep(st, e.recv).Continue?)
  }

  /** One iteration of the `while True` loop of `run_with_timeout`. */
  function Step(timeout: int, st: LoopState, e: Event): (res: StepResult)
    ensures e.elapsed > timeout ==> res == Stop(TimedOut(st))
    ensures e.elapsed <= timeout && !e.readable && !(e.writable && WantsWrite(st)) ==>
              res == (if e.status == "exited" then Stop(Exited(st)) else Continue(st))
    ensures e.elapsed <= timeout && e.readable && e.recv == Received([]) ==> res == Stop(EndOfStream(st))
    ensures e.elapsed <= timeout && e.readable && e.recv == ConnectionReset ==> res == Stop(Reset(st))
    ensures e.elapsed <= timeout && e.readable && e.recv.RecvFailed? ==> res == Stop(Raised(OsError(e.recv.recvErrno)))
    ensures e.elapsed <= timeout && e.readable && e.recv.Received? && |e.recv.data| > 0 ==>
              var fed := StreamParsing.Feed(st.parser, e.recv.data);
              && (fed.Err? ==> res == Stop(Raised(fed.error)))
              && (fed.Ok? && !(WritesThisStep(timeout, st, e) && e.send.SendFailed?) ==>
                    && res.Continue?
                    && res.next.parser == fed.value
                    && res.next.received == st.received + e.recv.data)
    ensures WritesThisStep(timeout, st, e) && e.send.Sent? ==>
              res.Continue? && res.next.stdin == st.stdin[Min(e.send.count, |st.stdin|)..]
    ensures WritesThisStep(timeout, st, e) && e.send.BrokenPipe? ==>
              res.Continue? && res.next.stdin == [] && res.next.pipeBroken
    ensures WritesThisStep(timeout, st, e) && e.send.SendFailed? ==> res == Stop(Raised(OsError(e.send.sendErrno)))
    ensures res.Continue? && !e.readable ==> res.next.parser == st.parser && res.next.received == st.received
    ensures res.Continue? && !WritesThisStep(timeout, st, e) ==>
              res.next.stdin == st.stdin && res.next.sent == st.sent && res.next.pipeBroken == st.pipeBroken
  {
    if e.elapsed > timeout then Stop(TimedOut(st))
    else
      var w := e.writable && WantsWrite(st);
      if !e.readable && !w then
        if e.status == "exited" then Stop(Exited(st)) else Continue(st)
      else
        var afterRead := if e.readable then ReadStep(st, e.recv) else Continue(st);
        match afterRead
        case Stop(end) => Stop(end)
        case Continue(st1) => if w && WantsWrite(st1) then WriteStep(st1, e.send) else Continue(st1)
  }

  /** Once stdin is used up the socket is no longer polled for writing:
      neither the write readiness nor the send outcome of an event matter. */
  lemma StepIgnoresWritesWithoutStdin(timeout: int, st: LoopState, e: Event, writable: bool, s: Send)
    requires !WantsWrite(st)
    ensures Step(timeout, st, e) == Step(timeout, st, e.(writable := writable, send := s))
  {
    var e2 := e.(writable := writable, send := s);
    if e.elapsed <= timeout && e.readable && e.recv.Received? && |e.recv.data| > 0 {
      assert ReadStep(st, e.recv).Continue? ==> ReadStep(st, e.recv).next.stdin == st.stdin;
    }
  }

  /** The loop, one script event per iteration. */
  function RunLoop(timeout: int, st: LoopState, script: seq<Event>): LoopEnd
    decreases |script|
  {
    if |script| == 0 then OutOfEvents(st)
    else
      match Step(timeout, st, script[0])
      case Continue(next) => RunLoop(timeout, next, script[1..])
      case Stop(end) => end
  }

  /** What holds of the loop variables at every iteration, for a run that
      started with stdin `input`: the parser's output is the decoding of
      all bytes received, in one go; the bytes sent followed by the unsent
      view make up the input unless the pipe broke, after which nothing is
      left to send and what was sent is a prefix of the input. */
  predicate Invariant(input: seq<byte>, st: LoopState)
  {
    && StreamParsing.Feed(StreamParsing.NewParser(HeaderSize), st.received) == Ok(st.parser)
    && (!st.pipeBroken ==> st.sent + st.stdin == input)
    && (st.pipeBroken ==> st.stdin == [] && st.sent <= input)
  }

  function InitialState(input: seq<byte>): LoopState
  {
    LoopState(StreamParsing.NewParser(HeaderSize), input, [], [], false)
  }

  lemma InitialStateInvariant(input: seq<byte>)
    ensures Invariant(input, InitialState(input))
  {
    var p := StreamParsing.NewParser(HeaderSize);
    assert p.buffer + [] == p.buffer;
    assert StreamParsing.Settled(p);
    StreamParsing.FeedOfNothing(p);
    assert [] + input == input;
  }

  /** The state a loop end carries, if any. */
  function EndState(end: LoopEnd): Option<LoopState>
  {
    match end
    case Exited(st) => Some(st)
    case EndOfStream(st) => Some(st)
    case Reset(st) => Some(st)
    case TimedOut(st) => Some(st)
    case OutOfEvents(st) => Some(st)
    case Raised(_) => None
  }

  /** Each iteration keeps the invariant, and never feeds the parser into
      a failure. */
  lemma StepKeepsInvariant(input: seq<byte>, timeout: int, st: LoopState, e: Event)
    requires Invariant(input, st)
    ensures var r := Step(timeout, st, e);
            && (r.Continue? ==> Invariant(input, r.next))
            && (r.Stop? && EndState(r.end).Some? ==> Invariant(input, EndState(r.end).value))
            && (r.Stop? && r.end.Raised? ==> r.end.error.OsError?)
  {
    var p0 := StreamParsing.NewParser(HeaderSize);
    if e.readable && e.recv.Received? && |e.recv.data| > 0 {
      var d := e.recv.data;
      StreamParsing.FeedChunkIndependent(p0, st.received, d);
      assert StreamParsing.Feed(st.parser, d).Ok?;
    }
    var w := e.writable && WantsWrite(st);
    var afterRead := if e.readable then ReadStep(st, e.recv) else Continue(st);
    if e.elapsed <= timeout && (e.readable || w) && afterRead.Continue? && w && WantsWrite(afterRead.next) {
      var st1 := afterRead.next;
      assert Invariant(input, st1);
      match e.send
      case Sent(n) =>
        var k := Min(n, |st1.stdin|);
        assert (st1.sent + st1.stdin[..k]) + st1.stdin[k..] == st1.sent + st1.stdin;
      case BrokenPipe =>
        assert st1.sent <= st1.sent + st1.stdin;
      case SendFailed(_) =>
    }
  }

  /** Every way the loop can end keeps the invariant: in particular, the
      output reported (on timeout too) is the decoding of exactly the bytes
      received, and the loop never raises anything but an OS error. */
  lemma {:induction false} RunLoopKeepsInvariant(input: seq<byte>, timeout: int, st: LoopState, script: seq<Event>)
    requires Invariant(input, st)
    decreases |script|
    ensures var end := RunLoop(timeout, st, script);
            && (EndState(end).Some? ==> Invariant(input, EndState(end).value))
            && (end.Raised? ==> end.error.OsError?)
  {
    if |script| > 0 {
      StepKeepsInvariant(input, timeout, st, script[0]);
      var r := Step(timeout, st, script[0]);
      if r.Continue? {
        RunLoopKeepsInvariant(input, timeout, r.next, script[1..]);
      }
    }
  }

  /** The bytes one iteration takes from the socket: the chunk `recv`
      returned, when the iteration reads at all. */
  function StepDelivered(timeout: int, e: Event): seq<byte>
  {
    if e.elapsed <= timeout && e.readable && e.recv.Received? then e.recv.data else []
  }

  /** The bytes the socket delivered to the loop over a whole run, chunk
      after chunk, up to the iteration that ends it. */
  function Delivered(timeout: int, st: LoopState, script: seq<Event>): seq<byte>
    decreases |script|
  {
    if |script| == 0 then []
    else
      match Step(timeout, st, script[0])
      case Continue(next) => StepDelivered(timeout, script[0]) + Delivered(timeout, next, script[1..])
      case Stop(_) => []
  }

  /** An iteration that goes on records exactly the chunk it read; one
      that ends with a state records nothing. */
  lemma StepRecordsDelivered(timeout: int, st: LoopState, e: Event)
    ensures var r := Step(timeout, st, e);
            && (r.Continue? ==> r.next.received == st.received + StepDelivered(timeout, e))
            && (r.Stop? && EndState(r.end).Some? ==> EndState(r.end).value.received == st.received)
  {
    if e.elapsed <= timeout && !e.readable {
      assert st.received + [] == st.received;
    }
  }

  /** Over a run, the bytes recorded as received are those delivered. */
  lemma {:induction false} RunLoopRecordsDelivered(timeout: int, st: LoopState, script: seq<Event>)
    decreases |script|
    ensures var end := RunLoop(timeout, st, script);
            EndState(end).Some? ==> EndState(end).value.received == st.received + Delivered(timeout, st, script)
  {
    if |script| == 0 {
      assert st.received + [] == st.received;
    } else {
      StepRecordsDelivered(timeout, st, script[0]);
      var r := Step(timeout, st, script[0]);
      if r.Continue? {
        RunLoopRecordsDelivered(timeout, r.next, script[1..]);
        var now, later := StepDelivered(timeout, script[0]), Delivered(timeout, r.next, script[1..]);
        AppendAssoc(st.received, now, later);
      } else {
        assert st.received + [] == st.received;
      }
    }
  }

  /** `container.attrs["State"]` after the final reload. */
  datatype ContainerState = ContainerState(exitCode: Option<int>, oomKilled: Option<bool>)

  /** The dictionary `run_with_timeout` returns.  `oomKilled` is `None`
      where the dictionary has no `oom_killed` key (the timeout result). */
  datatype ExecReport = ExecReport(
    timeout: bool, exitCode: Option<int>, oomKilled: Option<bool>, stdout: seq<byte>, stderr: seq<byte>)

  /** The result for a loop end: in-band timeout report, completion report
      read from the final container state, an exception, or `None` when the
      script ran out before the loop finished. */
  function Report(end: LoopEnd, finalState: Option<ContainerState>): (r: Result<Option<ExecReport>>)
    ensures end.TimedOut? ==>
              r == Ok(Some(ExecReport(true, Some(-1), None, end.timeoutState.parser.stdout,
                                      end.timeoutState.parser.stderr)))
    ensures end.Raised? <==> r.Err?
    ensures end.Raised? ==> r == Err(end.error)
    ensures end.OutOfEvents? <==> r == Ok(None)
    ensures end.Exited? || end.EndOfStream? || end.Reset? ==>
              && r.Ok? && r.value.Some?
              && var rep := r.value.value;
              && !rep.timeout
              && rep.stdout == EndState(end).value.parser.stdout
              && rep.stderr == EndState(end).value.parser.stderr
              && (finalState.Some? ==> rep.exitCode == finalState.value.exitCode)
              && (finalState.None? ==> rep.exitCode == None)
              && (finalState.Some? && finalState.value.oomKilled.Some? ==> rep.oomKilled == finalState.value.oomKilled)
              && (finalState.None? || finalState.value.oomKilled.None? ==> rep.oomKilled == Some(false))
  {
    match end
    case TimedOut(st) => Ok(Some(ExecReport(true, Some(-1), None, st.parser.stdout, st.parser.stderr)))
    case Raised(e) => Err(e)
    case OutOfEvents(_) => Ok(None)
    case _ =>
      var st := EndState(end).value;
      var state := match finalState case Some(s) => s case None => ContainerState(None, None);
      var oom := match state.oomKilled case Some(b) => b case None => false;
      Ok(Some(ExecReport(false, state.exitCode, Some(oom), st.parser.stdout, st.parser.stderr)))
  }

  /** `run_with_timeout(container, stdin, timeout)`: attach, start, loop,
      report.  Failing to get the attach socket, or an `APIError` while
      starting, raises `DockerOperationsError`; any other start failure
      escapes as is. */
  function RunWithTimeout(attach: SdkCall, start: SdkCall, stdin: seq<byte>, timeout: int,
                          script: seq<Event>, finalState: Option<ContainerState>): (r: Result<Option<ExecReport>>)
    ensures attach != CallOk ==> r == Err(DockerOperationsError(AttachSocket))
    ensures attach == CallOk && start == CallApiError ==> r == Err(DockerOperationsError(StartContainer))
    ensures attach == CallOk && start == CallOtherError ==> r == Err(SdkError)
    ensures r.Err? && r.error.OsError? ==> attach == CallOk && start == CallOk
  {
    if attach != CallOk then Err(DockerOperationsError(AttachSocket))
    else if start == CallApiError then Err(DockerOperationsError(StartContainer))
    else if start == CallOtherError then Err(SdkError)
    else assert start.CallOk?; Report(RunLoop(timeout, InitialState(stdin), script), finalState)
  }

  /** Whatever the script, the loop raises only OS errors, a report's
      output is what a fresh parser fed the whole stream the socket
      delivered produces (chunk boundaries do not matter), and a timeout
      report always has `exit_code` -1 and no `oom_killed`. */
  lemma RunWithTimeoutReport(stdin: seq<byte>, timeout: int, script: seq<Event>, finalState: Option<ContainerState>)
    ensures var r := RunWithTimeout(CallOk, CallOk, stdin, timeout, script, finalState);
            && (r.Err? ==> r.error.OsError?)
            && (r.Ok? && r.value.Some? ==>
                  var rep := r.value.value;
                  && (rep.timeout ==> rep.exitCode == Some(-1) && rep.oomKilled.None?)
                  && var q := StreamParsing.Feed(StreamParsing.NewParser(HeaderSize),
                                                 Delivered(timeout, InitialState(stdin), script));
                  && q.Ok? && rep.stdout == q.value.stdout && rep.stderr == q.value.stderr)
  {
    var init := InitialState(stdin);
    InitialStateInvariant(stdin);
    RunLoopKeepsInvariant(stdin, timeout, init, script);
    RunLoopRecordsDelivered(timeout, init, script);
    var end := RunLoop(timeout, init, script);
    if EndState(end).Some? {
      var st := EndState(end).value;
      assert st.received == Delivered(timeout, init, script) by {
        assert init.received == [];
      }
    }
  }

  /** The timeout check comes first in every iteration: once the clock is
      past the timeout the run reports a timeout with the output parsed so
      far, whatever else the event says. */
  lemma TimeoutKeepsPartialOutput(timeout: int, st: LoopState, script: seq<Event>)
    requires |script| > 0 && script[0].elapsed > timeout
    ensures var r := Report(RunLoop(timeout, st, script), None);
            r == Ok(Some(ExecReport(true, Some(-1), None, st.parser.stdout, st.parser.stderr)))
  {
  }

  /** `run_with_timeout` as written: a `while True` loop over the events,
      leaving through `break`, a timeout or an exception. */
  method RunWithTimeoutLoop(attach: SdkCall, start: SdkCall, stdin: seq<byte>, timeout: int,
                            script: seq<Event>, finalState: Option<ContainerState>)
    returns (r: Result<Option<ExecReport>>)
    ensures r == RunWithTimeout(attach, start, stdin, timeout, script, finalState)
  {
    if attach != CallOk {
      return Err(DockerOperationsError(AttachSocket));
    }
    if start == CallApiError {
      return Err(DockerOperationsError(StartContainer));
    } else if start == CallOtherError {
      return Err(SdkError);
    }
    var st := InitialState(stdin);
    var i := 0;
    var end: LoopEnd;
    while true
      invariant 0 <= i <= |script|
      invariant RunLoop(timeout, st, script[i..]) == RunLoop(timeout, InitialState(stdin), script)
      decreases |script| - i
    {
      if i == |script| {
        end := OutOfEvents(st);
        break;
      }
      var e := script[i];
      assert script[i..][0] == e && script[i..][1..] == script[i + 1..];
      if e.elapsed > timeout {
        end := TimedOut(st);
        break;
      }
      var writeReady := e.writable && |st.stdin| > 0;
      if !e.readable && !writeReady {
        if e.status == "exited" {
          end := Exited(st);
          break;
        }
        i := i + 1;
        continue;
      }
      if e.readable {
        match e.recv
        case Received(data) =>
          if |data| == 0 {
            end := EndOfStream(st);
            break;
          }
          var fed := StreamParsing.Feed(st.parser, data);
          if fed.Err? {
            end := Raised(fed.error);
            break;
          }
          st := st.(parser := fed.value, received := st.received + data);
        case ConnectionReset =>
          end := Reset(st);
          break;
        case RecvFailed(errno) =>
          end := Raised(OsError(errno));
          break;
      }
      if writeReady && |st.stdin| > 0 {
        match e.send
        case Sent(n) =>
          var k := Min(n, |st.stdin|);
          st := st.(stdin := st.stdin[k..], sent := st.sent + st.stdin[..k]);
        case BrokenPipe =>
          st := st.(stdin := [], pipeBroken := true);
        case SendFailed(errno) =>
          end := Raised(OsError(errno));
          break;
      }
      i := i + 1;
    }
    r := Report(end, finalState);
  }

  /** `put_archive`: an `APIError` becomes `DockerOperationsError`. */
  function PutArchive(call: SdkCall): (r: Option<Error>)
    ensures r.None? <==> call == CallOk
    ensures call == CallApiError ==> r == Some(DockerOperationsError(DockerOp.PutArchive))
    ensures call == CallOtherError ==> r == Some(SdkError)
  {
    match call
    case CallOk => None
    case CallApiError => Some(DockerOperationsError(DockerOp.PutArchive))
    case CallOtherError => Some(SdkError)
  }

  /** What `cleanup_container` lets escape to its caller, and whether it
      logged an error. */
  datatype Cleanup = Cleanup(raised: Option<Error>, logged: bool)

  /** `cleanup_container`: a failed forced removal is logged, never raised. */
  function CleanupContainer(removal: SdkCall): (r: Cleanup)
    ensures r.raised == None
    ensures r.logged <==> removal != CallOk
  {
    match removal
    case CallOk => Cleanup(None, false)
    case _ => Cleanup(None, true)
  }
}

=== FILE: frames.dfy ===
/** The multiplexed attach-stream framing of the Docker Engine API.

    Every frame is an 8-byte header -- one stream-type byte (1 = stdout,
    2 = stderr), three padding bytes, a 4-byte big-endian payload length --
    followed by exactly that many payload bytes.  This module gives the
    encoder side, used as the reference the decoders are proved against.
 */
module Frames {
  import opened Bytes
  import opened Outcomes

  /** `DockerService.STREAM_HEADER_SIZE`, the only size `">BxxxL"` accepts. */
  const HeaderSize: nat := 8
  const StdoutStream: byte := 1
  const StderrStream: byte := 2

  datatype Header = Header(stream: byte, length: nat)

  /** `struct.unpack(">BxxxL", h)`: stream byte and big-endian length,
      bytes 1..3 skipped; any size but 8 raises `struct.error`. */
  function UnpackHeader(h: seq<byte>): (r: Result<Header>)
    ensures r.Ok? <==> |h| == HeaderSize
    ensures r.Err? ==> r.error == StructError
    ensures r.Ok? ==> r.value.stream == h[0] && r.value.length < TwoTo32
  {
    if |h| != HeaderSize then Err(StructError)
    else Ok(Header(h[0], BigEndian32(h[4..8])))
  }

  /** A frame as the daemon sends it; the padding is kept so that every
      byte sequence that starts with a complete frame is the encoding of one. */
  datatype Frame = Frame(stream: byte, padding: seq<byte>, payload: seq<byte>)

  predicate WellFormed(f: Frame)
  {
    |f.padding| == 3 && |f.payload| < TwoTo32
  }

  predicate AllWellFormed(fs: seq<Frame>)
  {
    forall i | 0 <= i < |fs| :: WellFormed(fs[i])
  }

  function EncodeHeader(f: Frame): (h: seq<byte>)
    requires WellFormed(f)
    ensures |h| == HeaderSize
  {
    [f.stream] + f.padding + ToBigEndian32(|f.payload|)
  }

  function EncodeFrame(f: Frame): seq<byte>
    requires WellFormed(f)
  {
    EncodeHeader(f) + f.payload
  }

  function EncodeFrames(fs: seq<Frame>): seq<byte>
    requires AllWellFormed(fs)
  {
    if |fs| == 0 then [] else EncodeFrame(fs[0]) + EncodeFrames(fs[1..])
  }

  /** Splits the first frame off an encoded stream followed by more bytes. */
  lemma EncodeFramesCons(fs: seq<Frame>, rest: seq<byte>)
    requires AllWellFormed(fs) && |fs| > 0
    ensures EncodeFrames(fs) + rest == EncodeFrame(fs[0]) + (EncodeFrames(fs[1..]) + rest)
  {
    assert EncodeFrames(fs) == EncodeFrame(fs[0]) + EncodeFrames(fs[1..]);
  }

  /** Concatenated payloads of the stdout frames, in order. */
  function StdoutOf(fs: seq<Frame>): seq<byte>
  {
    if |fs| == 0 then []
    else (if fs[0].stream == StdoutStream then fs[0].payload else []) + StdoutOf(fs[1..])
  }

  /** Concatenated payloads of the stderr frames, in order. */
  function StderrOf(fs: seq<Frame>): seq<byte>
  {
    if |fs| == 0 then []
    else (if fs[0].stream == StderrStream then fs[0].payload else []) + StderrOf(fs[1..])
  }

  /** Concatenated payloads of frames of any other stream type. */
  function DroppedOf(fs: seq<Frame>): seq<byte>
  {
    if |fs| == 0 then []
    else (if fs[0].stream != StdoutStream && fs[0].stream != StderrStream then fs[0].payload else [])
         + DroppedOf(fs[1..])
  }

  /** `buf` starts with a header and the whole payload it announces. */
  predicate HasCompleteFrame(buf: seq<byte>)
  {
    |buf| >= HeaderSize && |buf| >= HeaderSize + BigEndian32(buf[4..8])
  }

  /** The frame at the front of a buffer that holds a complete one. */
  function FrontFrame(buf: seq<byte>): (f: Frame)
    requires HasCompleteFrame(buf)
    ensures WellFormed(f)
    ensures HeaderSize + |f.payload| <= |buf|
    ensures buf[..HeaderSize + |f.payload|] == EncodeFrame(f)
  {
    var len := BigEndian32(buf[4..8]);
    ToBigEndian32OfBigEndian32(buf[4..8]);
    var f := Frame(buf[0], buf[1..4], buf[8..8 + len]);
    assert buf[..HeaderSize + len] == [buf[0]] + buf[1..4] + buf[4..8] + buf[8..8 + len];
    f
  }

  /** Unpacking an encoded header gives back its stream type and length. */
  lemma UnpackEncodedHeader(f: Frame)
    requires WellFormed(f)
    ensures UnpackHeader(EncodeHeader(f)) == Ok(Header(f.stream, |f.payload|))
  {
    var h := EncodeHeader(f);
    assert h[4..8] == ToBigEndian32(|f.payload|);
    BigEndian32OfToBigEndian32(|f.payload|);
  }

  /** The three padding bytes never influence the decoded header. */
  lemma UnpackIgnoresPadding(h: seq<byte>, h': seq<byte>)
    requires |h| == |h'| == HeaderSize
    requires h[0] == h'[0] && h[4..] == h'[4..]
    ensures UnpackHeader(h) == UnpackHeader(h')
  {
    assert h[4..8] == h[4..][..4] == h'[4..][..4] == h'[4..8];
  }

  /** An encoded frame followed by anything is recognised as complete and
      decodes back to the same frame. */
  lemma EncodedFrameAtFront(f: Frame, rest: seq<byte>)
    requires WellFormed(f)
    ensures HasCompleteFrame(EncodeFrame(f) + rest)
    ensures BigEndian32((EncodeFrame(f) + rest)[4..8]) == |f.payload|
    ensures FrontFrame(EncodeFrame(f) + rest) == f
  {
    var buf := EncodeFrame(f) + rest;
    assert buf[4..8] == ToBigEndian32(|f.payload|);
    BigEndian32OfToBigEndian32(|f.payload|);
    assert buf[1..4] == f.padding;
    assert buf[8..8 + |f.payload|] == f.payload;
  }

  /** Every byte of an encoded stream is a header byte or a payload byte
      that is routed to stdout, to stderr, or dropped. */
  lemma {:induction false} EncodeFramesLength(fs: seq<Frame>)
    requires AllWellFormed(fs)
    ensures |EncodeFrames(fs)|
            == HeaderSize * |fs| + |StdoutOf(fs)| + |StderrOf(fs)| + |DroppedOf(fs)|
  {
    if |fs| > 0 {
      EncodeFramesLength(fs[1..]);
    }
  }
}

=== FILE: limits.dfy ===
/** Resource limits: `DEFAULT_LIMITS`, `merge_limits_defaults` and
    `create_ulimits` (docker.py), and the limit defaulting of
    `DockerService.create_container` (docker_client.py). */
module Limits {
  import opened Outcomes
  import opened Text
  import Config

  /** A `ResourceLimits` dictionary; every value is an integer. */
  type LimitMap = map<string, int>

  /** `DEFAULT_LIMITS`; note that it has no `file_size` entry. */
  const DefaultLimits: LimitMap :=
    map["cputime" := 1, "realtime" := 5, "memory" := 64, "processes" := -1]

  /** The iteration order of `DEFAULT_LIMITS.items()`. */
  const DefaultLimitOrder: seq<string> := ["cputime", "realtime", "memory", "processes"]

  /** `merge_limits_defaults(limits)`: `None` or an empty dict gives the
      defaults; otherwise every missing default key is filled in and, unless
      the caller set `realtime`, it becomes `cputime` times the CPU-to-real
      factor. */
  function MergeLimitsDefaults(limits: Option<LimitMap>): (r: LimitMap)
    ensures limits.None? || limits.value == map[] ==> r == DefaultLimits
    ensures DefaultLimits.Keys <= r.Keys
    ensures limits.Some? ==> r.Keys == limits.value.Keys + DefaultLimits.Keys
    ensures limits.Some? ==> forall k | k in limits.value :: r[k] == limits.value[k]
    ensures limits.Some? ==>
              forall k | k in DefaultLimits && k !in limits.value && k != "realtime" :: r[k] == DefaultLimits[k]
    ensures limits.None? || "realtime" !in limits.value ==>
              r["realtime"] == r["cputime"] * Config.CpuToRealTimeFactor
  {
    if limits.None? || limits.value == map[] then DefaultLimits
    else
      var given := limits.value;
      var filled := map k | k in given.Keys + DefaultLimits.Keys ::
                      if k in given then given[k] else DefaultLimits[k];
      if "realtime" in given then filled
      else filled["realtime" := filled["cputime"] * Config.CpuToRealTimeFactor]
  }

  /** Merging an already merged dictionary changes nothing. */
  lemma MergeLimitsDefaultsIdempotent(limits: Option<LimitMap>)
    ensures MergeLimitsDefaults(Some(MergeLimitsDefaults(limits))) == MergeLimitsDefaults(limits)
  {
    var m := MergeLimitsDefaults(limits);
    assert "cputime" in m;
    var again := MergeLimitsDefaults(Some(m));
    assert again.Keys == m.Keys;
  }

  /** `merge_limits_defaults` as written: the `for` loop over the default
      items, then the `realtime` override. */
  method MergeLimitsLoop(limits: Option<LimitMap>) returns (r: LimitMap)
    ensures r == MergeLimitsDefaults(limits)
  {
    if limits.None? || limits.value == map[] {
      return DefaultLimits;
    }
    r := limits.value;
    var realtimeSpecified := "realtime" in r;
    var i := 0;
    while i < |DefaultLimitOrder|
      invariant 0 <= i <= |DefaultLimitOrder|
      invariant forall j | 0 <= j < i :: DefaultLimitOrder[j] in r
      invariant forall k | k in r :: k in limits.value || k in DefaultLimitOrder[..i]
      invariant forall k | k in limits.value :: k in r && r[k] == limits.value[k]
      invariant forall k | k in r && k !in limits.value :: k in DefaultLimits && r[k] == DefaultLimits[k]
    {
      var name := DefaultLimitOrder[i];
      if name !in r {
        r := r[name := DefaultLimits[name]];
      }
      i := i + 1;
    }
    assert DefaultLimitOrder[..i] == DefaultLimitOrder;
    assert forall k | k in DefaultLimits :: k == DefaultLimitOrder[0] || k == DefaultLimitOrder[1]
                                            || k == DefaultLimitOrder[2] || k == DefaultLimitOrder[3];
    forall k
      ensures k in r <==> k in limits.value || k in DefaultLimits
    {
      if k in DefaultLimits {
        assert exists j | 0 <= j < 4 :: DefaultLimitOrder[j] == k;
      }
    }
    assert r.Keys == limits.value.Keys + DefaultLimits.Keys;
    if !realtimeSpecified {
      r := r["realtime" := r["cputime"] * Config.CpuToRealTimeFactor];
    }
  }

  /** A `docker.types.Ulimit`. */
  datatype Ulimit = Ulimit(name: string, soft: int, hard: int)

  /** `create_ulimits(limits)`: a `cpu` ulimit when `cputime` is non-zero,
      then an `fsize` ulimit when `file_size` is non-zero, `None` when
      neither; both keys are read unconditionally. */
  function CreateUlimits(limits: LimitMap): (r: Result<Option<seq<Ulimit>>>)
    ensures r.Ok? <==> "cputime" in limits && "file_size" in limits
    ensures "cputime" !in limits ==> r == Err(KeyError("cputime"))
    ensures "cputime" in limits && "file_size" !in limits ==> r == Err(KeyError("file_size"))
    ensures r.Ok? ==> (r.value.None? <==> limits["cputime"] == 0 && limits["file_size"] == 0)
    ensures r.Ok? && r.value.Some? ==>
              var us := r.value.value;
              var cpu := limits["cputime"];
              var fsize := limits["file_size"];
              && |us| == (if cpu != 0 then 1 else 0) + (if fsize != 0 then 1 else 0)
              && (cpu != 0 <==> Ulimit("cpu", cpu, cpu) in us)
              && (fsize != 0 <==> Ulimit("fsize", fsize, fsize) in us)
              && (cpu != 0 ==> us[0] == Ulimit("cpu", cpu, cpu))
              && (forall u | u in us :: u.soft == u.hard != 0)
  {
    if "cputime" !in limits then Err(KeyError("cputime"))
    else
      var cpu := if limits["cputime"] != 0 then [Ulimit("cpu", limits["cputime"], limits["cputime"])] else [];
      if "file_size" !in limits then Err(KeyError("file_size"))
      else
        var fsize := if limits["file_size"] != 0 then [Ulimit("fsize", limits["file_size"], limits["file_size"])] else [];
        var all := cpu + fsize;
        if all == [] then Ok(None) else Ok(Some(all))
  }

  /** `DEFAULT_LIMITS` has no `file_size`, so creating ulimits from merged
      limits raises `KeyError` unless the caller supplied `file_size`. */
  lemma UlimitsOfMergedLimitsNeedFileSize(limits: Option<LimitMap>)
    requires limits.None? || "file_size" !in limits.value
    ensures CreateUlimits(MergeLimitsDefaults(limits)) == Err(KeyError("file_size"))
  {
  }

  /** The container settings `create_container` passes to the SDK. */
  datatype ContainerSettings = ContainerSettings(
    image: string, command: seq<string>, memLimit: string, memswapLimit: string, pidsLimit: int)

  /** Reads back the megabyte count of a `"<n>m"` memory limit. */
  function ParseMemLimit(s: string): Option<int>
  {
    if |s| > 0 && s[|s| - 1] == 'm' then ParseInt(s[..|s| - 1]) else None
  }

  /** `create_container`: memory from `limits` or the configured default,
      written as `"<n>m"` for both the memory and the swap limit; process
      limit from `limits` or 100.  An `APIError` from the SDK becomes
      `DockerOperationsError`; any other exception escapes unchanged. */
  function CreateContainer(image: string, command: seq<string>, limits: LimitMap,
                           defaultMemoryMb: int, sdk: SdkCall): (r: Result<ContainerSettings>)
    ensures sdk == CallApiError ==> r == Err(DockerOperationsError(DockerOp.CreateContainer))
    ensures sdk == CallOtherError ==> r == Err(SdkError)
    ensures sdk == CallOk ==> r.Ok?
    ensures r.Ok? ==> r.value.image == image && r.value.command == command
    ensures r.Ok? ==> r.value.memswapLimit == r.value.memLimit
    ensures r.Ok? ==> r.value.pidsLimit == (if "processes" in limits then limits["processes"] else 100)
  {
    var memory := if "memory" in limits then limits["memory"] else defaultMemoryMb;
    var memLimit := IntToDecimal(memory) + "m";
    match sdk
    case CallOk =>
      Ok(ContainerSettings(image, command, memLimit, memLimit,
                           if "processes" in limits then limits["processes"] else 100))
    case CallApiError => Err(DockerOperationsError(DockerOp.CreateContainer))
    case CallOtherError => Err(SdkError)
  }

  /** The memory limit handed to Docker reads back as the caller's
      `memory` value, or the configured default when none was given. */
  lemma CreateContainerMemoryLimit(image: string, command: seq<string>, limits: LimitMap, defaultMemoryMb: int)
    ensures var r := CreateContainer(image, command, limits, defaultMemoryMb, CallOk);
            ParseMemLimit(r.value.memLimit)
            == Some(if "memory" in limits then limits["memory"] else defaultMemoryMb)
  {
    var memory := if "memory" in limits then limits["memory"] else defaultMemoryMb;
    var s := IntToDecimal(memory) + "m";
    assert s[..|s| - 1] == IntToDecimal(memory);
    ParseIntOfIntToDecimal(memory);
  }
}

=== FILE: outcomes.dfy ===
/** Failure-carrying values shared by every module of the sandbox model.

    The Python sandbox signals failure by raising exceptions; the model
    returns them instead, as an `Err` carrying one of the `Error` kinds below.
 */
module Outcomes {

  /** Python's `None` / value pair. */
  datatype Option<+T> = None | Some(value: T)

  /** Which Docker operation a `DockerOperationsError` wraps. */
  datatype DockerOp =
    | AttachSocket
    | StartContainer
    | CreateContainer
    | PutArchive

  /** Why `extract_file_from_archive` reports `FileNotFoundError`. */
  datatype NotFoundReason = NotInArchive | NotRegularFile

  /** The exceptions the sandbox code raises or lets escape. */
  datatype Error =
    | StructError                       // struct.unpack on a header of the wrong size
    | KeyError(key: string)             // a required dictionary key is missing
    | FileNotFound(name: string, reason: NotFoundReason)
    | DockerOperationsError(op: DockerOp)
    | OsError(errno: int)               // an unrecoverable OS-level socket error
    | SdkError                          // any other exception raised by the Docker SDK

  datatype Result<+T> = Ok(value: T) | Err(error: Error)

  /** Outcome of a Docker SDK call whose value the model does not need. */
  datatype SdkCall = CallOk | CallApiError | CallOtherError
}

=== FILE: recipe.dfy ===
/** `ImageManager` (image_manager.py): the Dockerfile generated for a
    profile and the build-or-reuse decision of `build_profile`. */
module Recipe {
  import opened Outcomes
  import opened Text
  import opened Config

  /** One line of the generated Dockerfile. */
  datatype Instruction =
    | From(baseImage: string)
    | AddUser(newUser: string)
    | AptInstall(systemPackages: seq<string>)
    | PipInstall(pythonPackages: seq<string>)
    | Workdir(dir: string)
    | Chown(owner: string, ownedDir: string)
    | SwitchUser(user: string)
    | DefaultCmd

  /** The system-package line up to the package list. */
  const AptPrefix: string := "RUN apt-get update && " + "apt-get install -y " + "--no-install-recommends "

  /** The text of one instruction, as `_generate_dockerfile` formats it. */
  function Render(i: Instruction): string
  {
    match i
    case From(b) => "FROM " + b
    case AddUser(u) => "RUN groupadd -r " + u + " && useradd -r -g " + u + " " + u
    case AptInstall(ps) =>
      AptPrefix + Join(ps, " ") + " && rm -rf /var/lib/apt/lists/*"
    case PipInstall(ps) => "RUN pip install --no-cache-dir " + Join(ps, " ")
    case Workdir(w) => "WORKDIR " + w
    case Chown(u, w) => "RUN chown -R " + u + ":" + u + " " + w
    case SwitchUser(u) => "USER " + u
    case DefaultCmd => "CMD [\"python3\"]"
  }

  /** Only root needs no user of its own. */
  predicate NeedsUser(p: Profile)
  {
    p.user != "root"
  }

  /** Which instructions a profile's Dockerfile must contain, independently
      of their order. */
  predicate Wanted(p: Profile, workdir: string, i: Instruction)
  {
    match i
    case From(b) => b == p.baseImage
    case AddUser(u) => NeedsUser(p) && u == p.user
    case AptInstall(ps) => |p.systemPackages| > 0 && ps == p.systemPackages
    case PipInstall(ps) => |p.pythonPackages| > 0 && ps == p.pythonPackages
    case Workdir(w) => w == workdir
    case Chown(u, w) => NeedsUser(p) && u == p.user && w == workdir
    case SwitchUser(u) => NeedsUser(p) && u == p.user
    case DefaultCmd => true
  }

  /** The phase each kind of instruction belongs to: base image, user,
      system packages, Python packages, working directory, ownership,
      user switch, default command. */
  function Phase(i: Instruction): nat
  {
    match i
    case From(_) => 0
    case AddUser(_) => 1
    case AptInstall(_) => 2
    case PipInstall(_) => 3
    case Workdir(_) => 4
    case Chown(_, _) => 5
    case SwitchUser(_) => 6
    case DefaultCmd => 7
  }

  /** The instructions of `_generate_dockerfile`: exactly the wanted ones,
      each once, in phase order, starting with `FROM` and ending with `CMD`. */
  function Instructions(p: Profile, workdir: string): (r: seq<Instruction>)
    ensures forall i :: i in r <==> Wanted(p, workdir, i)
    ensures forall j, k | 0 <= j < k < |r| :: Phase(r[j]) < Phase(r[k])
    ensures |r| > 0 && r[0] == From(p.baseImage) && r[|r| - 1] == DefaultCmd
  {
    var user := p.user;
    var head := [From(p.baseImage)]
      + (if NeedsUser(p) then [AddUser(user)] else [])
      + (if |p.systemPackages| > 0 then [AptInstall(p.systemPackages)] else [])
      + (if |p.pythonPackages| > 0 then [PipInstall(p.pythonPackages)] else [])
      + [Workdir(workdir)];
    head + (if NeedsUser(p) then [Chown(user, workdir), SwitchUser(user)] else []) + [DefaultCmd]
  }

  /** The positions that follow from the phase order: the user is added
      right after `FROM`, and a non-root recipe ends with `WORKDIR`, the
      ownership change, `USER` and `CMD`, in that order. */
  lemma InstructionsLayout(p: Profile, workdir: string)
    ensures var r := Instructions(p, workdir);
            && (NeedsUser(p) ==> |r| >= 6 && r[1] == AddUser(p.user))
            && (NeedsUser(p) ==> r[|r| - 4] == Workdir(workdir) && r[|r| - 3] == Chown(p.user, workdir)
                                 && r[|r| - 2] == SwitchUser(p.user))
            && (!NeedsUser(p) ==> |r| >= 3 && r[|r| - 2] == Workdir(workdir))
  {
  }

  function RenderAll(r: seq<Instruction>): (lines: seq<string>)
    ensures |lines| == |r| && forall j | 0 <= j < |r| :: lines[j] == Render(r[j])
  {
    seq(|r|, j requires 0 <= j < |r| => Render(r[j]))
  }

  /** `_generate_dockerfile(profile)`: the instructions joined by newlines;
      the text begins with the `FROM` line and ends with the `CMD` line. */
  function GenerateDockerfile(p: Profile, workdir: string): (text: string)
    ensures |"FROM " + p.baseImage| <= |text| && text[..|"FROM " + p.baseImage|] == "FROM " + p.baseImage
    ensures |"CMD [\"python3\"]"| <= |text| && text[|text| - |"CMD [\"python3\"]"|..] == "CMD [\"python3\"]"
  {
    var lines := RenderAll(Instructions(p, workdir));
    JoinEnds(lines, "\n");
    Join(lines, "\n")
  }

  /** No field the Dockerfile interpolates spans a line break. */
  predicate SingleLineFields(p: Profile, workdir: string)
  {
    && '\n' !in p.baseImage && '\n' !in p.user && '\n' !in workdir
    && (forall j | 0 <= j < |p.systemPackages| :: '\n' !in p.systemPackages[j])
    && (forall j | 0 <= j < |p.pythonPackages| :: '\n' !in p.pythonPackages[j])
  }

  lemma ConcatAvoids(a: string, b: string, c: char)
    requires c !in a && c !in b
    ensures c !in a + b
  {
    assert forall j | 0 <= j < |a + b| :: (a + b)[j] == if j < |a| then a[j] else b[j - |a|];
  }

  lemma AddUserSingleLine(u: string)
    requires '\n' !in u
    ensures '\n' !in Render(AddUser(u))
  {
    ConcatAvoids("RUN groupadd -r ", u, '\n');
    ConcatAvoids("RUN groupadd -r " + u, " && useradd -r -g ", '\n');
    ConcatAvoids("RUN groupadd -r " + u + " && useradd -r -g ", u, '\n');
    ConcatAvoids("RUN groupadd -r " + u + " && useradd -r -g " + u, " ", '\n');
    ConcatAvoids("RUN groupadd -r " + u + " && useradd -r -g " + u + " ", u, '\n');
  }

  lemma AptPrefixSingleLine()
    ensures '\n' !in AptPrefix
  {
    ConcatAvoids("RUN apt-get update && ", "apt-get install -y ", '\n');
    ConcatAvoids("RUN apt-get update && " + "apt-get install -y ", "--no-install-recommends ", '\n');
  }

  lemma AptInstallSingleLine(ps: seq<string>)
    requires forall j | 0 <= j < |ps| :: '\n' !in ps[j]
    ensures '\n' !in Render(AptInstall(ps))
  {
    AptPrefixSingleLine();
    JoinAvoids(ps, " ", '\n');
    ConcatAvoids(AptPrefix, Join(ps, " "), '\n');
    ConcatAvoids(AptPrefix + Join(ps, " "), " && rm -rf /var/lib/apt/lists/*", '\n');
  }

  lemma PipInstallSingleLine(ps: seq<string>)
    requires forall j | 0 <= j < |ps| :: '\n' !in ps[j]
    ensures '\n' !in Render(PipInstall(ps))
  {
    JoinAvoids(ps, " ", '\n');
    ConcatAvoids("RUN pip install --no-cache-dir ", Join(ps, " "), '\n');
  }

  lemma ChownSingleLine(u: string, w: string)
    requires '\n' !in u && '\n' !in w
    ensures '\n' !in Render(Chown(u, w))
  {
    ConcatAvoids("RUN chown -R ", u, '\n');
    ConcatAvoids("RUN chown -R " + u, ":", '\n');
    ConcatAvoids("RUN chown -R " + u + ":", u, '\n');
    ConcatAvoids("RUN chown -R " + u + ":" + u, " ", '\n');
    ConcatAvoids("RUN chown -R " + u + ":" + u + " ", w, '\n');
  }

  lemma RenderSingleLine(p: Profile, workdir: string, i: Instruction)
    requires SingleLineFields(p, workdir) && Wanted(p, workdir, i)
    ensures '\n' !in Render(i)
  {
    match i
    case From(b) => ConcatAvoids("FROM ", b, '\n');
    case AddUser(u) => AddUserSingleLine(u);
    case AptInstall(ps) => AptInstallSingleLine(ps);
    case PipInstall(ps) => PipInstallSingleLine(ps);
    case Workdir(w) => ConcatAvoids("WORKDIR ", w, '\n');
    case Chown(u, w) => ChownSingleLine(u, w);
    case SwitchUser(u) => ConcatAvoids("USER ", u, '\n');
    case DefaultCmd =>
  }

  /** The generated Dockerfile, read back line by line, is exactly the
      rendered instructions. */
  lemma DockerfileLines(p: Profile, workdir: string)
    requires SingleLineFields(p, workdir)
    ensures Split(GenerateDockerfile(p, workdir), '\n') == RenderAll(Instructions(p, workdir))
  {
    var r := Instructions(p, workdir);
    var lines := RenderAll(r);
    forall j | 0 <= j < |lines|
      ensures '\n' !in lines[j]
    {
      assert r[j] in r;
      RenderSingleLine(p, workdir, r[j]);
    }
    SplitJoin(lines, '\n');
  }

  /** What `build_profile` did: the image tag it returns, the Dockerfile it
      built from (`None` when an existing image was reused), and the set
      of image tags present afterwards. */
  datatype BuildReport = BuildReport(tag: string, dockerfile: Option<string>, images: set<string>)

  /** `build_profile(profile_name, force_rebuild)`.  `images` holds the
      tags `images.get` finds; `build` is the outcome of `images.build`,
      whose failure is re-raised. */
  function BuildProfile(s: Settings, workdir: string, name: string, force: bool,
                        images: set<string>, build: SdkCall): (r: Result<BuildReport>)
    requires name in s.profiles
    ensures var tag := GetProfile(s, name).image;
            && (!force && tag in images ==> r == Ok(BuildReport(tag, None, images)))
            && (r.Err? <==> (force || tag !in images) && build != CallOk)
            && (r.Err? ==> r.error == SdkError)
            && (r.Ok? ==> r.value.tag == tag && r.value.images == images + {tag})
            && (r.Ok? && (force || tag !in images) ==>
                  r.value.dockerfile == Some(GenerateDockerfile(GetProfile(s, name), workdir)))
  {
    var profile := GetProfile(s, name);
    var tag := profile.image;
    if !force && tag in images then Ok(BuildReport(tag, None, images))
    else if build != CallOk then Err(SdkError)
    else Ok(BuildReport(tag, Some(GenerateDockerfile(profile, workdir)), images + {tag}))
  }

  /** Without `force_rebuild`, a second build of the same profile reuses
      the image the first one produced. */
  lemma BuildProfileBuildsOnce(s: Settings, workdir: string, name: string, force: bool,
                               images: set<string>, build: SdkCall, again: SdkCall)
    requires name in s.profiles
    requires BuildProfile(s, workdir, name, force, images, build).Ok?
    ensures var first := BuildProfile(s, workdir, name, force, images, build).value;
            BuildProfile(s, workdir, name, false, first.images, again) == Ok(BuildReport(first.tag, None, first.images))
  {
  }
}

=== FILE: stream_parser.dfy ===
/** The incremental frame decoder `StreamParser` (stream_parser.py; utility.py
    carries a textually identical copy, modelled by the same definitions).

    The parser keeps a byte buffer and the stdout/stderr accumulated so far.
    `feed` appends a chunk and extracts every complete frame; a partial
    trailing frame stays in the buffer until later chunks complete it.
 */
module StreamParsing {
  import opened Bytes
  import opened Outcomes
  import opened Frames

  /** The parser's state: header size it was built with, pending bytes,
      and the two accumulated outputs. */
  datatype Parser = Parser(header: nat, buffer: seq<byte>, stdout: seq<byte>, stderr: seq<byte>)

  /** `StreamParser(header)`: empty buffer and empty outputs. */
  function NewParser(header: nat): (p: Parser)
    ensures p.header == header
    ensures p.buffer == [] && p.stdout == [] && p.stderr == []
  {
    Parser(header, [], [], [])
  }

  /** `get_output()`: the (stdout, stderr) pair accumulated so far. */
  function Output(p: Parser): (seq<byte>, seq<byte>)
  {
    (p.stdout, p.stderr)
  }

  /** Appends one payload to the output its stream type selects; any other
      stream type is consumed and dropped. */
  function Route(p: Parser, stream: byte, payload: seq<byte>): (q: Parser)
    ensures q.header == p.header && q.buffer == p.buffer
    ensures q.stdout == p.stdout + (if stream == StdoutStream then payload else [])
    ensures q.stderr == p.stderr + (if stream == StderrStream then payload else [])
  {
    if stream == StdoutStream then p.(stdout := p.stdout + payload)
    else if stream == StderrStream then p.(stderr := p.stderr + payload)
    else p
  }

  /** No complete frame is left in the buffer: fewer bytes than a header,
      or fewer than the header plus the length it announces. */
  predicate Settled(p: Parser)
  {
    |p.buffer| < p.header || (p.header == HeaderSize && !HasCompleteFrame(p.buffer))
  }

  /** `_process_buffer`: extracts complete frames from the front of the
      buffer until none is left.  A header size other than 8 makes
      `struct.unpack` raise as soon as the buffer holds that many bytes. */
  function ProcessBuffer(p: Parser): (r: Result<Parser>)
    decreases |p.buffer|
    ensures r.Err? <==> p.header != HeaderSize && |p.buffer| >= p.header
    ensures r.Err? ==> r.error == StructError
    ensures r.Ok? ==> r.value.header == p.header && Settled(r.value)
    ensures r.Ok? ==> p.stdout <= r.value.stdout && p.stderr <= r.value.stderr
  {
    if |p.buffer| < p.header then Ok(p)
    else
      match UnpackHeader(p.buffer[..p.header])
      case Err(e) => Err(e)
      case Ok(h) =>
        var total := p.header + h.length;
        if |p.buffer| < total then Ok(p)
        else
          var q := Route(p, h.stream, p.buffer[p.header..total]).(buffer := p.buffer[total..]);
          ProcessBuffer(q)
  }

  /** `feed(data)`: append the chunk to the buffer, then extract frames. */
  function Feed(p: Parser, data: seq<byte>): (r: Result<Parser>)
    ensures r.Err? <==> p.header != HeaderSize && |p.buffer| + |data| >= p.header
    ensures r.Ok? ==> r.value.header == p.header && Settled(r.value)
    ensures r.Ok? ==> p.stdout <= r.value.stdout && p.stderr <= r.value.stderr
  {
    ProcessBuffer(p.(buffer := p.buffer + data))
  }

  /** Feeding into a failed parser propagates the failure. */
  function FeedAfter(r: Result<Parser>, data: seq<byte>): Result<Parser>
  {
    match r
    case Ok(q) => Feed(q, data)
    case Err(e) => Err(e)
  }

  /** Feeds the chunks one after the other, as successive socket reads do. */
  function FeedAll(p: Parser, chunks: seq<seq<byte>>): Result<Parser>
    decreases |chunks|
  {
    if |chunks| == 0 then Ok(p)
    else
      match Feed(p, chunks[0])
      case Ok(q) => FeedAll(q, chunks[1..])
      case Err(e) => Err(e)
  }

  /** Drops the complete frame at the front of the buffer and routes its
      payload. */
  function Advance(p: Parser): (q: Parser)
    requires HasCompleteFrame(p.buffer)
  {
    var f := FrontFrame(p.buffer);
    Route(p, f.stream, f.payload).(buffer := p.buffer[HeaderSize + |f.payload|..])
  }

  /** One extraction step of the decode loop. */
  lemma ProcessBufferStep(p: Parser)
    requires p.header == HeaderSize && HasCompleteFrame(p.buffer)
    ensures ProcessBuffer(p) == ProcessBuffer(Advance(p))
  {
    var f := FrontFrame(p.buffer);
    var h := UnpackHeader(p.buffer[..p.header]);
    assert h == Ok(Header(f.stream, |f.payload|));
    var total := HeaderSize + |f.payload|;
    assert p.buffer[HeaderSize..total] == f.payload;
    var q := Route(p, h.value.stream, p.buffer[p.header..total]).(buffer := p.buffer[total..]);
    assert q == Advance(p);
  }

  /** The decode loop stops at once on a settled buffer. */
  lemma ProcessBufferSettled(p: Parser)
    requires Settled(p)
    ensures ProcessBuffer(p) == Ok(p)
  {
  }

  /** Routing the first frame, then the others, routes all of them. */
  lemma RouteFirstFrame(p: Parser, fs: seq<Frame>)
    requires |fs| > 0
    ensures Route(p, fs[0].stream, fs[0].payload).stdout + StdoutOf(fs[1..]) == p.stdout + StdoutOf(fs)
    ensures Route(p, fs[0].stream, fs[0].payload).stderr + StderrOf(fs[1..]) == p.stderr + StderrOf(fs)
  {
    var x := if fs[0].stream == StdoutStream then fs[0].payload else [];
    var y := if fs[0].stream == StderrStream then fs[0].payload else [];
    assert StdoutOf(fs) == x + StdoutOf(fs[1..]);
    assert StderrOf(fs) == y + StderrOf(fs[1..]);
    AppendAssoc(p.stdout, x, StdoutOf(fs[1..]));
    AppendAssoc(p.stderr, y, StderrOf(fs[1..]));
  }

  /** Reference characterisation: a buffer made of complete frames
      followed by a remainder holding no complete frame is decoded into
      exactly those frames' routed payloads, leaving the remainder. */
  lemma {:induction false} ProcessBufferOfFrames(p: Parser, fs: seq<Frame>, rest: seq<byte>)
    requires p.header == HeaderSize
    requires AllWellFormed(fs)
    requires !HasCompleteFrame(rest)
    decreases |fs|
    ensures ProcessBuffer(p.(buffer := EncodeFrames(fs) + rest))
            == Ok(p.(buffer := rest, stdout := p.stdout + StdoutOf(fs), stderr := p.stderr + StderrOf(fs)))
  {
    if |fs| == 0 {
      assert EncodeFrames(fs) + rest == rest;
      assert p.stdout + StdoutOf(fs) == p.stdout && p.stderr + StderrOf(fs) == p.stderr;
      ProcessBufferSettled(p.(buffer := rest));
    } else {
      var f := fs[0];
      var tail := EncodeFrames(fs[1..]) + rest;
      var b := p.(buffer := EncodeFrames(fs) + rest);
      EncodeFramesCons(fs, rest);
      EncodedFrameAtFront(f, tail);
      ProcessBufferStep(b);
      var q := Route(p, f.stream, f.payload);
      assert b.buffer[HeaderSize + |f.payload|..] == tail;
      assert Advance(b) == q.(buffer := tail);
      ProcessBufferOfFrames(q, fs[1..], rest);
      RouteFirstFrame(p, fs);
    }
  }

  /** `get_output()` of a fresh parser fed a whole encoded stream returns
      the payloads of its stdout frames and of its stderr frames, each in
      stream order. */
  lemma OutputOfEncodedFrames(fs: seq<Frame>)
    requires AllWellFormed(fs)
    ensures var r := Feed(NewParser(HeaderSize), EncodeFrames(fs));
            r.Ok? && Output(r.value) == (StdoutOf(fs), StderrOf(fs))
  {
    var p := NewParser(HeaderSize);
    var enc := EncodeFrames(fs);
    assert !HasCompleteFrame([]);
    ProcessBufferOfFrames(p, fs, []);
    assert p.(buffer := enc + []) == p.(buffer := p.buffer + enc) by {
      assert enc + [] == enc == p.buffer + enc;
    }
    assert [] + StdoutOf(fs) == StdoutOf(fs) && [] + StderrOf(fs) == StderrOf(fs);
  }

  /** Converse characterisation: whatever the buffer holds, decoding splits
      it into complete frames, routed in order, and a settled remainder. */
  lemma {:induction false} ProcessBufferDecomposes(p: Parser) returns (fs: seq<Frame>)
    requires p.header == HeaderSize
    decreases |p.buffer|
    ensures AllWellFormed(fs)
    ensures ProcessBuffer(p).Ok?
    ensures p.buffer == EncodeFrames(fs) + ProcessBuffer(p).value.buffer
    ensures ProcessBuffer(p).value.stdout == p.stdout + StdoutOf(fs)
    ensures ProcessBuffer(p).value.stderr == p.stderr + StderrOf(fs)
  {
    if !HasCompleteFrame(p.buffer) {
      fs := [];
      ProcessBufferSettled(p);
      assert EncodeFrames(fs) + p.buffer == p.buffer;
    } else {
      var f := FrontFrame(p.buffer);
      var q := Advance(p);
      assert p.buffer == EncodeFrame(f) + q.buffer;
      ProcessBufferStep(p);
      var gs := ProcessBufferDecomposes(q);
      fs := [f] + gs;
      assert fs[0] == f && fs[1..] == gs;
      var rest := ProcessBuffer(p).value.buffer;
      EncodeFramesCons(fs, rest);
      RouteFirstFrame(p, fs);
    }
  }

  /** Bytes appended after a decode do not change the frames already
      extracted: decoding `buffer + extra` continues from where decoding
      `buffer` stopped. */
  lemma {:induction false} ProcessBufferAppend(p: Parser, extra: seq<byte>)
    requires ProcessBuffer(p).Ok?
    decreases |p.buffer|
    ensures ProcessBuffer(p.(buffer := p.buffer + extra))
            == ProcessBuffer(ProcessBuffer(p).value.(buffer := ProcessBuffer(p).value.buffer + extra))
  {
    var r := ProcessBuffer(p).value;
    if |p.buffer| < p.header {
      assert r == p;
    } else {
      assert p.header == HeaderSize;
      var h := UnpackHeader(p.buffer[..p.header]).value;
      var total := p.header + h.length;
      var big := p.buffer + extra;
      assert big[..p.header] == p.buffer[..p.header];
      if |p.buffer| < total {
        assert r == p;
      } else {
        assert big[p.header..total] == p.buffer[p.header..total];
        assert big[total..] == p.buffer[total..] + extra;
        var q := Route(p, h.stream, p.buffer[p.header..total]).(buffer := p.buffer[total..]);
        assert ProcessBuffer(p) == ProcessBuffer(q);
        assert ProcessBuffer(p.(buffer := big)) == ProcessBuffer(q.(buffer := q.buffer + extra));
        ProcessBufferAppend(q, extra);
      }
    }
  }

  /** Chunk-boundary independence: feeding `a` then `b` leaves the same
      stdout, stderr and buffer (or the same failure) as feeding `a + b`. */
  lemma FeedChunkIndependent(p: Parser, a: seq<byte>, b: seq<byte>)
    ensures FeedAfter(Feed(p, a), b) == Feed(p, a + b)
  {
    assert p.buffer + (a + b) == (p.buffer + a) + b;
    if Feed(p, a).Ok? {
      ProcessBufferAppend(p.(buffer := p.buffer + a), b);
    }
  }

  /** Any split of the input into successive chunks decodes as the whole. */
  lemma {:induction false} FeedAllIsFeedOfWhole(p: Parser, chunks: seq<seq<byte>>)
    requires Settled(p)
    decreases |chunks|
    ensures FeedAll(p, chunks) == Feed(p, Flatten(chunks))
  {
    if |chunks| == 0 {
      FeedOfNothing(p);
    } else {
      FeedChunkIndependent(p, chunks[0], Flatten(chunks[1..]));
      if Feed(p, chunks[0]).Ok? {
        FeedAllIsFeedOfWhole(Feed(p, chunks[0]).value, chunks[1..]);
      }
    }
  }

  /** Feeding nothing into a parser that holds no complete frame is a no-op. */
  lemma FeedOfNothing(p: Parser)
    requires Settled(p)
    ensures Feed(p, []) == Ok(p)
  {
    assert p.buffer + [] == p.buffer;
  }

  /** Conservation: the bytes fed (plus any already pending) are exactly
      the headers consumed, the payloads routed to stdout, to stderr, the
      payloads dropped, and the bytes left pending. */
  lemma FeedConservesBytes(p: Parser, data: seq<byte>) returns (fs: seq<Frame>)
    requires p.header == HeaderSize
    ensures AllWellFormed(fs)
    ensures Feed(p, data).Ok?
    ensures |p.buffer| + |data|
            == HeaderSize * |fs| + |StdoutOf(fs)| + |StderrOf(fs)| + |DroppedOf(fs)|
               + |Feed(p, data).value.buffer|
    ensures Feed(p, data).value.stdout == p.stdout + StdoutOf(fs)
    ensures Feed(p, data).value.stderr == p.stderr + StderrOf(fs)
  {
    fs := ProcessBufferDecomposes(p.(buffer := p.buffer + data));
    EncodeFramesLength(fs);
  }

  /** `_process_buffer` as written: a loop that extracts one frame per
      iteration and returns when the front frame is incomplete. */
  method ProcessBufferLoop(p: Parser) returns (r: Result<Parser>)
    ensures r == ProcessBuffer(p)
    ensures r.Ok? ==> Settled(r.value)
  {
    var cur := p;
    while true
      invariant cur.header == p.header
      invariant ProcessBuffer(cur) == ProcessBuffer(p)
      decreases |cur.buffer|
    {
      if |cur.buffer| < cur.header {
        return Ok(cur);
      }
      var h := UnpackHeader(cur.buffer[..cur.header]);
      if h.Err? {
        return Err(h.error);
      }
      var total := cur.header + h.value.length;
      if |cur.buffer| < total {
        return Ok(cur);
      }
      var payload := cur.buffer[cur.header..total];
      if h.value.stream == StdoutStream {
        cur := cur.(stdout := cur.stdout + payload);
      } else if h.value.stream == StderrStream {
        cur := cur.(stderr := cur.stderr + payload);
      }
      cur := cur.(buffer := cur.buffer[total..]);
    }
  }
}

/** The stateful `StreamParser` object wrapping the functional decoder. */
module ParserObject {
  import opened Outcomes
  import opened Bytes
  import opened Frames
  import StreamParsing

  /** The stateful `StreamParser` object: `feed` mutates the state in
      place and `get_output` only reads it. */
  class StreamParser {
    var state: StreamParsing.Parser

    constructor (header: nat)
      ensures state == StreamParsing.NewParser(header)
    {
      state := StreamParsing.NewParser(header);
    }

    /** On success the state is the decoded one; on `struct.error` the
        chunk has been appended to the buffer and nothing else changed. */
    method Feed(data: seq<byte>) returns (failure: Option<Error>)
      modifies this
      ensures failure.None? <==> StreamParsing.Feed(old(state), data).Ok?
      ensures failure.None? ==> state == StreamParsing.Feed(old(state), data).value
      ensures failure.Some? ==> failure.value == StructError
                                && state == old(state).(buffer := old(state).buffer + data)
    {
      state := state.(buffer := state.buffer + data);
      var r := StreamParsing.ProcessBufferLoop(state);
      if r.Ok? {
        state := r.value;
        failure := None;
      } else {
        failure := Some(r.error);
      }
    }

    method GetOutput() returns (out: seq<byte>, err: seq<byte>)
      ensures (out, err) == StreamParsing.Output(state)
    {
      out, err := state.stdout, state.stderr;
    }
  }
}

=== FILE: text.dfy ===
/** Text helpers the sandbox relies on from Python: `str(int)`,
    `int(str)` and `sep.join(parts)`. */
module Text {
  import opened Outcomes

  predicate IsDigit(c: char)
  {
    '0' <= c <= '9'
  }

  predicate AllDigits(s: string)
  {
    forall i | 0 <= i < |s| :: IsDigit(s[i])
  }

  function Digit(d: nat): (c: char)
    requires d < 10
    ensures IsDigit(c) && (c as int) - ('0' as int) == d
  {
    (('0' as int) + d) as char
  }

  /** Decimal digits of a natural number, without leading zeros. */
  function NatToDecimal(n: nat): (s: string)
    decreases n
    ensures |s| > 0 && AllDigits(s)
  {
    if n < 10 then [Digit(n)] else NatToDecimal(n / 10) + [Digit(n % 10)]
  }

  /** Python's `str(i)` for an integer. */
  function IntToDecimal(i: int): string
  {
    if i < 0 then "-" + NatToDecimal(-i) else NatToDecimal(i)
  }

  /** Value of a string of decimal digits, most significant first. */
  function DigitsValue(s: string): nat
    requires AllDigits(s)
  {
    if |s| == 0 then 0
    else DigitsValue(s[..|s| - 1]) * 10 + ((s[|s| - 1] as int) - ('0' as int))
  }

  /** Python's `int(s)` on an optionally signed decimal string. */
  function ParseInt(s: string): Option<int>
  {
    if |s| > 1 && s[0] == '-' && AllDigits(s[1..]) then Some(0 - DigitsValue(s[1..]) as int)
    else if |s| > 0 && AllDigits(s) then Some(DigitsValue(s))
    else None
  }

  lemma {:induction false} DigitsValueOfNatToDecimal(n: nat)
    decreases n
    ensures DigitsValue(NatToDecimal(n)) == n
  {
    if n >= 10 {
      var s := NatToDecimal(n);
      assert s[..|s| - 1] == NatToDecimal(n / 10);
      DigitsValueOfNatToDecimal(n / 10);
    }
  }

  /** Rendering an integer in decimal and reading it back gives it back. */
  lemma ParseIntOfIntToDecimal(i: int)
    ensures ParseInt(IntToDecimal(i)) == Some(i)
  {
    if i < 0 {
      var s := IntToDecimal(i);
      assert s[1..] == NatToDecimal(-i);
      DigitsValueOfNatToDecimal(-i);
    } else {
      DigitsValueOfNatToDecimal(i);
    }
  }

  /** `sep.join(parts)`. */
  function Join(parts: seq<string>, sep: string): string
  {
    if |parts| == 0 then ""
    else if |parts| == 1 then parts[0]
    else parts[0] + sep + Join(parts[1..], sep)
  }

  /** A joined text begins with its first part and ends with its last. */
  lemma {:induction false} JoinEnds(parts: seq<string>, sep: string)
    requires |parts| > 0
    ensures |parts[0]| <= |Join(parts, sep)| && |parts[|parts| - 1]| <= |Join(parts, sep)|
    ensures Join(parts, sep)[..|parts[0]|] == parts[0]
    ensures Join(parts, sep)[|Join(parts, sep)| - |parts[|parts| - 1]|..] == parts[|parts| - 1]
  {
    if |parts| > 1 {
      JoinEnds(parts[1..], sep);
      var j := Join(parts, sep);
      var rest := Join(parts[1..], sep);
      assert j == parts[0] + sep + rest;
      assert j[..|parts[0]|] == parts[0];
      assert parts[1..][|parts[1..]| - 1] == parts[|parts| - 1];
      assert j[|j| - |parts[|parts| - 1]|..] == rest[|rest| - |parts[|parts| - 1]|..];
    }
  }

  /** `s.split(sep)` for a single-character separator: the pieces between
      separators, so always at least one. */
  function Split(s: string, sep: char): (pieces: seq<string>)
    ensures |pieces| > 0
    decreases |s|
  {
    if |s| == 0 then [""]
    else
      var rest := Split(s[1..], sep);
      if s[0] == sep then [""] + rest else [[s[0]] + rest[0]] + rest[1..]
  }

  /** Text without the separator glues onto the first piece. */
  lemma {:induction false} SplitPrefix(a: string, rest: string, sep: char)
    requires sep !in a
    ensures Split(a + rest, sep) == [a + Split(rest, sep)[0]] + Split(rest, sep)[1..]
    decreases |a|
  {
    if |a| > 0 {
      assert (a + rest)[1..] == a[1..] + rest;
      assert a[1..] + Split(rest, sep)[0] == (a + Split(rest, sep)[0])[1..];
      SplitPrefix(a[1..], rest, sep);
      assert [a[0]] + (a[1..] + Split(rest, sep)[0]) == a + Split(rest, sep)[0];
    } else {
      var pieces := Split(rest, sep);
      assert a + rest == rest && a + pieces[0] == pieces[0];
      assert [pieces[0]] + pieces[1..] == pieces;
    }
  }

  /** Splitting a joined text on the separator gives back the parts,
      provided no part contains the separator. */
  lemma {:induction false} SplitJoin(parts: seq<string>, sep: char)
    requires |parts| > 0
    requires forall i | 0 <= i < |parts| :: sep !in parts[i]
    ensures Split(Join(parts, [sep]), sep) == parts
    decreases |parts|
  {
    if |parts| == 1 {
      SplitPrefix(parts[0], "", sep);
      assert parts[0] + "" == parts[0];
    } else {
      var rest := Join(parts[1..], [sep]);
      SplitJoin(parts[1..], sep);
      assert Join(parts, [sep]) == parts[0] + ([sep] + rest);
      SplitPrefix(parts[0], [sep] + rest, sep);
      assert ([sep] + rest)[1..] == rest;
      assert Split([sep] + rest, sep) == [""] + parts[1..];
      assert parts[0] + "" == parts[0];
      assert ([""] + parts[1..])[1..] == parts[1..];
    }
  }

  /** A joined text contains a character only if a part or the separator does. */
  lemma {:induction false} JoinAvoids(parts: seq<string>, sep: string, c: char)
    requires c !in sep
    requires forall i | 0 <= i < |parts| :: c !in parts[i]
    ensures c !in Join(parts, sep)
    decreases |parts|
  {
    if |parts| > 1 {
      JoinAvoids(parts[1..], sep, c);
    }
  }
}

=== FILE: utf8.dfy ===
/** UTF-8, as `str.encode("utf-8")` produces it, with a decoder that
    accepts exactly the well-formed encodings of Unicode scalar values. */
module Utf8 {
  import opened Bytes
  import opened Outcomes

  predicate IsContinuation(b: byte)
  {
    0x80 <= b < 0xC0
  }

  /** The bytes encoding one character. */
  function EncodeChar(c: char): (b: seq<byte>)
    ensures 1 <= |b| <= 4
  {
    var cp := c as int;
    if cp < 0x80 then [cp]
    else if cp < 0x800 then [0xC0 + cp / 0x40, 0x80 + cp % 0x40]
    else if cp < 0x1_0000 then [0xE0 + cp / 0x1000, 0x80 + (cp / 0x40) % 0x40, 0x80 + cp % 0x40]
    else [0xF0 + cp / 0x4_0000, 0x80 + (cp / 0x1000) % 0x40, 0x80 + (cp / 0x40) % 0x40, 0x80 + cp % 0x40]
  }

  /** `s.encode("utf-8")`. */
  function Encode(s: string): seq<byte>
  {
    if |s| == 0 then [] else EncodeChar(s[0]) + Encode(s[1..])
  }

  predicate IsScalar(cp: int)
  {
    0 <= cp < 0xD800 || 0xE000 <= cp < 0x11_0000
  }

  /** The character at the front of `b` and the number of bytes it takes;
      `None` for an ill-formed, overlong or truncated sequence. */
  function DecodeChar(b: seq<byte>): (r: Option<(char, nat)>)
    requires |b| > 0
    ensures r.Some? ==> 1 <= r.value.1 <= |b|
  {
    var b0 := b[0] as int;
    var b1 := if |b| > 1 then b[1] as int else 0;
    var b2 := if |b| > 2 then b[2] as int else 0;
    var b3 := if |b| > 3 then b[3] as int else 0;
    if b0 < 0x80 then Some((b0 as char, 1))
    else if 0xC0 <= b0 < 0xE0 && |b| >= 2 && IsContinuation(b[1]) then
      var cp := (b0 - 0xC0) * 0x40 + (b1 - 0x80);
      if cp >= 0x80 then Some((cp as char, 2)) else None
    else if 0xE0 <= b0 < 0xF0 && |b| >= 3 && IsContinuation(b[1]) && IsContinuation(b[2]) then
      var cp := (b0 - 0xE0) * 0x1000 + (b1 - 0x80) * 0x40 + (b2 - 0x80);
      if cp >= 0x800 && IsScalar(cp) then Some((cp as char, 3)) else None
    else if 0xF0 <= b0 < 0xF8 && |b| >= 4 && IsContinuation(b[1]) && IsContinuation(b[2])
            && IsContinuation(b[3]) then
      var cp := (b0 - 0xF0) * 0x4_0000 + (b1 - 0x80) * 0x1000 + (b2 - 0x80) * 0x40 + (b3 - 0x80);
      if 0x1_0000 <= cp < 0x11_0000 then Some((cp as char, 4)) else None
    else None
  }

  /** `b.decode("utf-8")`, `None` where Python raises `UnicodeDecodeError`. */
  function Decode(b: seq<byte>): Option<string>
    decreases |b|
  {
    if |b| == 0 then Some("")
    else
      match DecodeChar(b)
      case None => None
      case Some((c, n)) =>
        match Decode(b[n..])
        case None => None
        case Some(s) => Some([c] + s)
  }

  lemma DecodeThreeByteChar(c: char, rest: seq<byte>)
    requires 0x800 <= c as int < 0x1_0000
    ensures DecodeChar(EncodeChar(c) + rest) == Some((c, 3))
  {
    var cp := c as int;
    assert cp / 0x40 == (cp / 0x1000) * 0x40 + (cp / 0x40) % 0x40;
    assert cp == (cp / 0x40) * 0x40 + cp % 0x40;
  }

  lemma DecodeFourByteChar(c: char, rest: seq<byte>)
    requires 0x1_0000 <= c as int
    ensures DecodeChar(EncodeChar(c) + rest) == Some((c, 4))
  {
    var cp := c as int;
    assert cp / 0x1000 == (cp / 0x4_0000) * 0x40 + (cp / 0x1000) % 0x40;
    assert cp / 0x40 == (cp / 0x1000) * 0x40 + (cp / 0x40) % 0x40;
    assert cp == (cp / 0x40) * 0x40 + cp % 0x40;
  }

  /** Decoding the encoding of one character, whatever follows it. */
  lemma DecodeEncodedChar(c: char, rest: seq<byte>)
    ensures DecodeChar(EncodeChar(c) + rest) == Some((c, |EncodeChar(c)|))
  {
    var cp := c as int;
    if cp < 0x80 {
    } else if cp < 0x800 {
      assert cp == (cp / 0x40) * 0x40 + cp % 0x40;
    } else if cp < 0x1_0000 {
      DecodeThreeByteChar(c, rest);
    } else {
      DecodeFourByteChar(c, rest);
    }
  }

  /** Round trip: decoding an encoded string gives the string back. */
  lemma {:induction false} DecodeEncode(s: string)
    ensures Decode(Encode(s)) == Some(s)
  {
    if |s| > 0 {
      var e := Encode(s);
      assert e == EncodeChar(s[0]) + Encode(s[1..]);
      DecodeEncodedChar(s[0], Encode(s[1..]));
      assert e[|EncodeChar(s[0])|..] == Encode(s[1..]);
      DecodeEncode(s[1..]);
      assert [s[0]] + s[1..] == s;
    }
  }
}
